=== FILE: README.md ===
# Command discovery and lazy registration, modelled in Dafny

This project models the core of a PHP console application's command loader.
The loader scans a commands directory, finds the class each source file declares
without running the file, and registers every class carrying an `AsCommand`
attribute with the console application. It then answers `has`, `get` and
`getNames` from memo caches. The model covers four source files:

- `src/Console/Autoloader.php` is split over two modules. `ClassDiscovery` models
  `getClassFromFile` as a scan over a token sequence. `Autoloader` models
  `createCommand`, `get`, `has`, `getNames`, the constructor's scan and the
  lazy-proxy initialisation.
- `src/Filesystem/Resolver.php` is modelled by `Filesystem`: `resolve`, `open`,
  `globRecursive` and the constructor.
- `src/Traits/ConfigurationAwareTrait.php` is modelled by `Configuration`: the
  dotted-key lookup and the per-namespace document cache.
- `src/Filesystem/PathNotExistsException.php` is modelled by
  `PathNotExistsException`: the message, the code and `getPath`.

Support modules: `Optional` (PHP null), `Errors` (the exceptions raised, and
`Result`), `Strings` (`implode`, `explode` and `str_ends_with`; `pathinfo` is
built from `explode`), and `OrderedMaps` (an `ArrayObject` used as a
dictionary, which keeps first-insertion order).

Everything outside PHP's own logic is an oracle passed in as a value:
- `token_get_all` of a file's contents;
- `class_exists`, `is_subclass_of`, the class attributes, and whether
  `newInstanceWithoutConstructor()` can instantiate a class;
- `realpath`, together with what a canonical path names on disk (missing,
  a directory with its entries, or another file);
- `fnmatch`;
- the YAML parser.

The static caches (`static $cache`, `static $memoization`,
`static::$configResolver`) are explicit values. Each operation takes them in
and returns them.

## Behaviour of the code that the model keeps

- `getNames()` returns the keys of `$this->commands`. The constructor never
  writes to that map, because it only calls `$this->application->add(...)`. So
  right after initialisation `getNames()` is empty. Later it lists the names
  under which `get` loaded a command, in first-call order. As written, the name
  is stored even though `get` then raises (see "## Findings"). In the corrected
  `Autoloader.Get` these are exactly the names of successful calls. It does not
  list the scanned commands in scan order (`Autoloader.Construct`,
  `Autoloader.NamesOf`).
- `get` stores the result under the caller's raw name. `foo` and `foo.php` are
  two entries that resolve the same file (`Autoloader.BothSpellingsLoadTheSameFile`).
- `get` of a name with no file behind it does not raise a not-found error.
  `realpath` fails, `resolve` coerces that to `""`, and `file_get_contents('')`
  raises a `ValueError`.
- The scan takes the token two after the LAST `T_CLASS`. That includes
  `Foo::class` expressions. Namespace texts accumulate: every `namespace`
  token appends its name and a backslash.
- A commands directory that does not exist is not an error. `realpath` gives
  `false`, which becomes `""` in the `string` property `path`. Opening the root
  then resolves `/`, so the glob walks the whole filesystem
  (`Filesystem.MissingRootResolvesToFilesystemRoot`).
- The iterator's `SKIP_DOTS` skips only `.` and `..`. Hidden files are visited,
  and they are yielded when their name matches.
- Opening an unreadable file throws inside `SplFileObject`'s constructor, before
  `isReadable()` is ever asked. So the "not a readable file" branch of
  `loadConfiguration` is reached only for a directory.

## Model

| member | source | states |
|---|---|---|
| `PathNotExistsException.New` | src/Filesystem/PathNotExistsException.php:10-32 | code is always 404; `getPath` returns the path given; with a truthy root the message is `Path non existent "<path>" from "<root>"`, otherwise `Path non existent "<path>"` |
| `PathNotExistsException.RootExtendsMessage` | src/Filesystem/PathNotExistsException.php:15-24 | a truthy root only appends ` from "<root>"` to the root-less message |
| `PathNotExistsException.FalsyRootsAgree` | src/Filesystem/PathNotExistsException.php:15-24 | null, `""` and `"0"` roots all give the same message |
| `PathNotExistsException.MessageDeterminesPath` | src/Filesystem/PathNotExistsException.php:21-24 | without a root, equal messages mean equal paths |
| `Strings.Split` | src/Traits/ConfigurationAwareTrait.php:37 | `explode` yields at least one piece and no piece contains the separator |
| `Strings.JoinSplit` | src/Traits/ConfigurationAwareTrait.php:37 | joining the pieces of `explode` with the separator gives back the key |
| `Strings.SplitJoin` | src/Filesystem/Resolver.php:87-95 | exploding an `implode` of separator-free pieces gives back the pieces |
| `Strings.SplitConcat` | src/Traits/ConfigurationAwareTrait.php:37 | `explode` of `a.b` is the pieces of `a` followed by those of `b` |
| `Strings.SplitExtendsLastPiece` | src/Traits/ConfigurationAwareTrait.php:69 | text free of the separator appended to a string only lengthens the last piece of its `explode` |
| `OrderedMaps.Put` | src/Console/Autoloader.php:162 | `offsetSet` keeps keys unique; a new key goes last, an existing key keeps its place |
| `Filesystem.RealPath` | src/Filesystem/Resolver.php:87 | the canonical path where `realpath` succeeds, `""` (its `false` coerced) where it fails |
| `Filesystem.Create` | src/Filesystem/Resolver.php:20-30 | fails with a root-less not-found error exactly when the project root is unknown; otherwise the root is the canonical `<project root>/<path>`, or `""` when that does not canonicalise |
| `Filesystem.Resolve` | src/Filesystem/Resolver.php:85-96 | the canonical form of the root and segments joined by `/`, or `""` when that does not canonicalise |
| `Filesystem.JoinedKeepsSegments` | src/Filesystem/Resolver.php:85-96 | the joined string splits back into the root's components then the segments, in order |
| `Filesystem.MissingRootResolvesToFilesystemRoot` | src/Filesystem/Resolver.php:28 | a directory that does not canonicalise leaves the root `""`, and resolving the root then canonicalises `/` |
| `Filesystem.Open` | src/Filesystem/Resolver.php:67-83 | a not-found error with the requested path and the resolver root when nothing exists; an existing directory opens as a directory handle with its entries; any other existing entry opens as a file handle when readable and fails with a runtime error otherwise; every handle is at the resolved path |
| `Filesystem.Select` | src/Filesystem/Resolver.php:57-61 | a path is yielded iff it is the canonical path of a regular file in the stream whose file name (not its path) matches |
| `Filesystem.SelectAppend` | src/Filesystem/Resolver.php:57-61 | the filter keeps the order of the iterator's stream |
| `Filesystem.GlobRecursive` | src/Filesystem/Resolver.php:41-62 | open errors propagate; a root that opens as a file is an invalid-argument error; it succeeds exactly when the root opens as a directory, and then every matching regular file of the tree is yielded and nothing else |
| `Filesystem.ParentsBeforeChildren` | src/Filesystem/Resolver.php:48-54 | SELF_FIRST order: every entry comes after the directory it was listed in |
| `Filesystem.TraverseListsEntries` | src/Filesystem/Resolver.php:48-54 | every entry of the root directory is visited |
| `Filesystem.TraverseReachesDescendants` | src/Filesystem/Resolver.php:48-54 | whatever a visited directory contains is visited too, at any depth |
| `Filesystem.GlobIsRecursiveDescent` | src/Filesystem/Resolver.php:48-61 | filtering the SELF_FIRST stream equals a recursive descent that emits each matching regular file once, in pre-order, and nothing for directories |
| `Configuration.LookupFromWalks` | src/Traits/ConfigurationAwareTrait.php:37-46 | the segment loop returns the value the segments reach when each is set, else the default |
| `Configuration.WalkNeverReachesNull` | src/Traits/ConfigurationAwareTrait.php:40-43 | `isset` excludes null, so a non-empty path never ends on null |
| `Configuration.WalkConcat` | src/Traits/ConfigurationAwareTrait.php:39-44 | walking two stretches of segments is walking them at once |
| `Configuration.LookupFollowsSegments` | src/Traits/ConfigurationAwareTrait.php:37-46 | a dotted key answers the nested value when every segment exists and is non-null, the default at the first missing or null segment; the answer is the default or non-null |
| `Configuration.LookupDotted` | src/Traits/ConfigurationAwareTrait.php:37-46 | `a.b` is `b` looked up inside what `a` reaches |
| `Configuration.ConfigFileName` | src/Traits/ConfigurationAwareTrait.php:68-71 | the file name always has a (truthy) extension; a namespace with one is kept, any other gets `.yaml` |
| `Configuration.ExtensionAfterDot` | src/Traits/ConfigurationAwareTrait.php:69 | `pathinfo` gives `ext` as the extension of any `<name>.<ext>` when `ext` has no dot or separator |
| `Configuration.YamlExtensionIsExtension` | src/Traits/ConfigurationAwareTrait.php:68-71 | `pathinfo` sees `yaml` as the extension of `<namespace>.yaml` |
| `Configuration.ConfigFileNameIdempotent` | src/Traits/ConfigurationAwareTrait.php:68-71 | deriving the file name twice equals deriving it once |
| `Configuration.LoadWith` | src/Traits/ConfigurationAwareTrait.php:52-83 | loaded configuration is kept; a cached namespace is taken from the cache; otherwise the resolver is memoized, `ConfigFileName(namespace)` is opened under it, and the load succeeds exactly when that opens as a file, with the host holding the parse of that file, cached under the namespace; open errors propagate, a directory gets the blamed error, and a failure leaves the host unchanged; no cached document is ever replaced; a failure caches no document, a successful read caches exactly its document, and the configuration resolver, once obtained, stays memoized even when the open fails |
| `Configuration.Load` | src/Traits/ConfigurationAwareTrait.php:52-83 | as `LoadWith`, with a directory reported as not found against the configuration resolver root |
| `Configuration.LoadIdempotent` | src/Traits/ConfigurationAwareTrait.php:57-65 | loading twice equals loading once, after success or failure |
| `Configuration.CachedNamespaceNeedsNoFile` | src/Traits/ConfigurationAwareTrait.php:62-65 | a cached namespace is served without the filesystem or the parser |
| `Configuration.LoadAsWritten` | src/Traits/ConfigurationAwareTrait.php:52-83 | the load as written, whose directory branch reads the host's own resolver |
| `Configuration.DirectoryNamespaceLosesItsError` | src/Traits/ConfigurationAwareTrait.php:76-78 | with the host's resolver unset, a namespace that is a directory raises an uninitialized-property error as written, a not-found error when corrected |
| `Configuration.GetConfigurationOption` | src/Traits/ConfigurationAwareTrait.php:33-47 | loads first, propagates a load failure, otherwise answers the lookup in the loaded document; the lookup leaves the state exactly as the load left it |
| `ClassDiscovery.LastClass` | src/Console/Autoloader.php:81-83 | the position found is a `T_CLASS` with none after it; none is found only when no `T_CLASS` occurs |
| `ClassDiscovery.ScanFromReference` | src/Console/Autoloader.php:74-84 | the loop's invariant: from any position it completes the reference state |
| `ClassDiscovery.ScanComputesReference` | src/Console/Autoloader.php:74-84 | the namespace is every namespace token's name plus a backslash, in order; the class token is the one two after the last `T_CLASS` |
| `ClassDiscovery.PrefixUnchanged` | src/Console/Autoloader.php:76-79 | tokens other than `T_NAMESPACE` leave the namespace unchanged |
| `ClassDiscovery.TypicalFile` | src/Console/Autoloader.php:74-90 | a file with `namespace N;` and later `class C` yields `N\C` |
| `ClassDiscovery.GetClassFromFile` | src/Console/Autoloader.php:60-98 | a cached path answers from the cache; an empty path is a `ValueError`, an unparsable file a parse error; no token two after the last `T_CLASS` (no `T_CLASS`, or the file ends) is "No class found in file"; a name that is not an existing class is "No class found"; otherwise the name (every namespace, then the class token) is returned and cached; failures leave the cache unchanged |
| `ClassDiscovery.RediscoveryIsStable` | src/Console/Autoloader.php:62-66 | after a success, a second call returns the same name without rescanning |
| `Autoloader.CommandAttributes` | src/Console/Autoloader.php:112 | exactly the `AsCommand` attributes are kept |
| `Autoloader.FirstAttributeIsFirstDeclared` | src/Console/Autoloader.php:112-120 | the attribute read as `[0]` is the first `AsCommand` attribute declared on the class |
| `Autoloader.CommandAttributesAppend` | src/Console/Autoloader.php:112 | the filter distributes over concatenation, so declaration order is kept |
| `Autoloader.CreateCommandWith` | src/Console/Autoloader.php:106-125 | a memo hit instantiates the memoized class; otherwise a missing class fails with a reflection error and an unmarked class with the invalid-argument error `<class> is not a command.`, both memoizing nothing, and a marked one is memoized before instantiation, which fails for a class that cannot be instantiated |
| `Autoloader.CreateCommand` | src/Console/Autoloader.php:106-125 | raises exactly for an unmemoized class that is missing or has no `AsCommand` attribute, or for a class that cannot be instantiated; a missing class gives a reflection error for it and an unmarked one the invalid-argument error `<class> is not a command.`; a success returns the memoized command name (the attribute's declared name) and a bare instance of the class; only an existing marked class is memoized |
| `Autoloader.CreateCommandRepeats` | src/Console/Autoloader.php:110-124 | after a success the memo is final, and a second call returns the same name and class from it whatever reflection now says |
| `Autoloader.CreateCommandAsWritten` | src/Console/Autoloader.php:120 | as written, the "name" is always the `AsCommand` attribute class |
| `Autoloader.AsWrittenConflatesCommands` | src/Console/Autoloader.php:120 | as written, two commands with different declared names get the same name; corrected, they do not |
| `Autoloader.NormalizeFileName` | src/Console/Autoloader.php:146-149 | the file name ends in `.php`; a name ending in `.php` is unchanged, any other gets `.php` |
| `Autoloader.NormalizeIdempotent` | src/Console/Autoloader.php:146-149 | normalising twice equals normalising once |
| `Autoloader.LoadCommand` | src/Console/Autoloader.php:146-161 | a discovery failure propagates; a class that is not a `Command` subclass is the invalid-argument error `Class "<class>" does not extend "Symfony\Component\Console\Command\Command"`; otherwise it succeeds exactly when `createCommand` does, and `createCommand`'s error is the result; a success returns the memoized name and a bare instance of the class cached for the resolved file, a `Command` subclass; definitions change only through `createCommand` |
| `Autoloader.BothSpellingsLoadTheSameFile` | src/Console/Autoloader.php:146-151 | `foo` and `foo.php` load the same file |
| `Autoloader.Get` | src/Console/Autoloader.php:139-165 | a stored name answers from the map with nothing changed; a success stores the instance under the raw name, appended to the key order; a failure stores nothing; a fresh call returns what loading the command gives and leaves the class and definition memos as loading left them |
| `Autoloader.NonCommandIsRejected` | src/Console/Autoloader.php:155-159 | a class that is not a `Command` subclass raises and nothing is stored |
| `Autoloader.GetRepeats` | src/Console/Autoloader.php:141-143 | after a success, a later `get` returns the stored value without resolving |
| `Autoloader.Has` | src/Console/Autoloader.php:127-134 | true exactly when `get` succeeds, false on every failure; keeps `get`'s side effects |
| `Autoloader.GetNames` | src/Console/Autoloader.php:170-175 | each stored name once, and only those |
| `Autoloader.GetNamesInInsertionOrder` | src/Console/Autoloader.php:162-174 | a successful `get` of a new name appends it to the names; any other call leaves them |
| `Autoloader.GetAsWritten` | src/Console/Autoloader.php:139-165 | as written, `get` always raises, and a command that loads is still stored |
| `Autoloader.HasAsWritten` | src/Console/Autoloader.php:127-134 | as written, `has` is always false |
| `Autoloader.GetAsWrittenLosesEveryCommand` | src/Console/Autoloader.php:161-164 | wherever a command loads, the corrected `get`/`has` succeed and the code as written fails |
| `Autoloader.RegisterOne` | src/Console/Autoloader.php:43-44 | the class memo is the one class discovery leaves; a discovery error propagates with definitions unchanged; otherwise the step succeeds exactly when `createCommand` does, its error propagates, the definitions are those `createCommand` leaves, and a registered name is the memoized definition name of the file's class |
| `Autoloader.RegisterEach` | src/Console/Autoloader.php:42-49 | no files registers nothing and succeeds; one file gives that step's caches and its name or its error; a failing first file aborts with its error; a completed scan has one name per file, the first from the first file |
| `Autoloader.RegisterAll` | src/Console/Autoloader.php:42-49 | as `RegisterEach` for the constructor's step: no files succeeds with no names, one file gives its name or its error, a failing first file aborts |
| `Autoloader.RegisterEachAppend` | src/Console/Autoloader.php:42-49 | the scan of `a + b` is the scan of `a` continued with `b`: file order kept, nothing after the first failure |
| `Autoloader.Start` | src/Console/Autoloader.php:38-49 | given the value read for the commands directory: a read error propagates, a null or array value is the `TypeError` of `new Resolver`, and the errors of the resolver, the glob and the registration loop propagate in that order; when every stage succeeds, construction succeeds, and then the resolver is the one built from that directory, the glob under it succeeded, the registered names and caches are exactly those of registering the globbed files in order (one name per file), and `getNames` is empty |
| `Autoloader.Construct` | src/Console/Autoloader.php:34-50 | as `Start` on the configured `autoloader.paths.commands`: a read error propagates, a null or array value is a `TypeError`, the resolver, glob and registration errors propagate, and construction succeeds when every stage does; on success the resolver is the one built from the configured directory, the glob under it succeeded, the registered names and caches are exactly those of registering the globbed files in order, and `getNames` is empty |
| `Autoloader.Initialize` | src/Console/Autoloader.php:172 | an initialized proxy is returned as is; a pending one becomes `Ready` with exactly the constructed loader, or fails with construction's error |
| `Autoloader.ScanRunsOnce` | src/Console/Autoloader.php:172 | the one-time scan runs at most once |
| `Autoloader.NamesOf` | src/Console/Autoloader.php:170-175 | `getNames` initializes first and fails with the initialization's error; otherwise it returns exactly the initialized proxy and `GetNames` of its loader, which is empty right after construction; an initialized proxy answers its own names |

## Left out

- Tokenisation, reflection, `class_exists`, `is_subclass_of` and instantiability are oracles in `Autoloader.Runtime`. The PHP tokenizer itself is not modelled.
- `realpath`, `file_exists`, `is_dir`, `dir`, `SplFileObject` and stream contexts are an abstract `Filesystem.FileSystem`. Symbolic links are assumed already followed into a finite tree, so link cycles are not modelled.
- `fnmatch` is an oracle on (pattern, file name). Shell-glob syntax is not modelled.
- `Yaml::parseFile` is a total oracle from path to document. Parse errors and top-level non-mapping documents are not modelled.
- The yielded path is `getRealPath()`. The model reads it from the same `realpath` oracle and uses `""` where `realpath` fails.
- `isset` on a scalar with a numeric segment (a PHP string offset, `"abc"["0"]`) is not modelled: a segment below a scalar counts as missing.
- YAML scalars are held in the string form PHP coerces them to when passed to `new Resolver(string $path)`. Integer, boolean and float conversion is not modelled.
- `pathinfo` is modelled with `/` as the only separator and without its trailing-slash stripping.
- `Filesystem.DirName` models `SplFileInfo::getPath()` only as "up to the last `/`".
- `PathNotExistsException::getRoot()` is not modelled. With a null root it would raise a `TypeError`, and the constructor calls it only for a truthy root.
- `Resolver::getPath()` and `Autoloader::getResolver()` are plain field reads (`Resolver.path`, `Loader.resolver`).
- `OrderedMaps.Put`: keys stay strings. `ArrayObject` turns a numeric-string key such as `"1"` into the integer `1`, so `getNames()` after `get("1")` would list an integer.
- Object identity is not modelled. `newInstanceWithoutConstructor()` gives a fresh object per call; the model gives a value `Bare(className)`. "The same instance" means the value stored in `$this->commands`.
- `$this->application->add(new Command($name))` is modelled as the list of registered names. The `Command` objects are not modelled.
- A constructor that fails drops the static caches it filled. In PHP they would outlive the failed object.
- The lazy proxy (`LazyProxyTrait`) is only an explicit one-shot `Autoloader.Initialize`, used by `getNames`. `get` and `has` are modelled on an initialized `Loader`.
- The logger, `bin/console.php`, the ReactPHP event loop and the application wiring are not part of this model.
- `Autoloader.RegisterAll`: its own contract fixes scans of no file and of one file, and the count and first name of a completed scan. Longer scans follow from `Autoloader.RegisterEachAppend` one file at a time.
- `Autoloader.CommandAttributes`: attribute names are compared exactly. `getAttributes(AsCommand::class)` without `IS_INSTANCEOF` compares class names case-insensitively, as PHP does for class names. So an attribute written with other letter case, such as `#[ascommand]`, is kept by PHP but dropped by the model. Case folding is not modelled.
- `Filesystem.Open`: an existing directory always opens. `dir()` on an unreadable directory returns `false`, which the return type `Directory|SplFileObject` rejects with a `TypeError`. Directory readability is not modelled.
- `Filesystem.GlobRecursive`: every directory in the tree is assumed listable. Without `CATCH_GET_CHILD`, `RecursiveIteratorIterator` throws `UnexpectedValueException` on an unreadable subdirectory, which would abort the constructor's scan. This error is not modelled.

## Findings

| source | as written | input that shows it | evidently intended | confidence | as-written member | corrected member |
|---|---|---|---|---|---|---|
| src/Console/Autoloader.php:161-164 | `get` stores and returns `createCommand`'s `[name, instance]` array under a declared return type `Command`. So every `get` raises a `TypeError`, including the cached call, and `has` is always false (`Autoloader.GetAsWrittenLosesEveryCommand`). | any name whose file declares an existing `Command` subclass with an `AsCommand` attribute | store and return the instance, the array's second element | high; not executed | `Autoloader.GetAsWritten` | `Autoloader.Get` |
| src/Console/Autoloader.php:120 | the command name is `$attributes[0]->getName()`, which is the attribute's class name. Every command is registered under that one name (`Autoloader.AsWrittenConflatesCommands`). | two command classes marked `#[AsCommand(name: 'a')]` and `#[AsCommand(name: 'b')]` | the `name` the attribute declares | high; not executed | `Autoloader.CreateCommandAsWritten` | `Autoloader.CreateCommand` |
| src/Traits/ConfigurationAwareTrait.php:76-77 | the "not a readable file" error reads `$this->getResolver()`. In the autoloader that is the commands resolver, which is still uninitialized while the constructor loads configuration, so an uninitialized-property error is raised instead (`Configuration.DirectoryNamespaceLosesItsError`). | `config/global.yaml` is a directory when the autoloader is constructed | a not-found error for the namespace against the configuration resolver's root | medium; not executed | `Configuration.LoadAsWritten` | `Configuration.Load` |

=== FILE: autoloader.dfy ===
/** The command loader (src/Console/Autoloader.php): the constructor's scan of
    the commands directory, `createCommand`, `get`, `has` and `getNames`.
    Reflection, `class_exists`, `is_subclass_of` and the file tokeniser are
    oracles collected in `Runtime`; the static caches are explicit state. */
module Autoloader {
  import opened Optional
  import opened Errors
  import Strings
  import Filesystem
  import Configuration
  import ClassDiscovery
  import OrderedMaps

  const CommandsOption := "autoloader.paths.commands"
  const CommandPattern := "*.php"
  const PhpExtension := ".php"
  const AsCommandClass := "Symfony\\Component\\Console\\Attribute\\AsCommand"
  const CommandClass := "Symfony\\Component\\Console\\Command\\Command"
  const NullDirectory := "Resolver::__construct(): Argument #1 ($path) must be of type string, null given"
  const ArrayDirectory := "Resolver::__construct(): Argument #1 ($path) must be of type string, array given"
  const ArrayReturned := "Autoloader::get(): Return value must be of type Command, array returned"

  /** A PHP attribute on a class: the attribute's class, and for `AsCommand`
      the `name` argument it was given. */
  datatype Attribute = Attribute(className: string, commandName: string)

  /** A `createCommand` memo entry: `[name, ReflectionClass]`. The reflection
      is always of the class the entry is keyed by, so only the name is kept. */
  datatype Definition = Definition(name: string)

  /** An object made by `newInstanceWithoutConstructor()`. */
  datatype Instance = Bare(className: string)

  datatype Runtime = Runtime(
    config: Configuration.Environment,
    tokenize: string -> Option<seq<ClassDiscovery.Token>>,
    classExists: string -> bool,
    isCommand: string -> bool,
    instantiable: string -> bool,
    attributesOf: string -> seq<Attribute>,
    fnmatch: (string, string) -> bool)

  /** The two static caches: file path to class name (`getClassFromFile`) and
      class name to definition (`createCommand`). */
  datatype Caches = Caches(classes: map<string, string>, definitions: map<string, Definition>)

  /** `getAttributes(AsCommand::class)`: the attributes of exactly that class,
      in declaration order. */
  function CommandAttributes(attrs: seq<Attribute>): (r: seq<Attribute>)
    ensures forall a :: a in r ==> a in attrs && a.className == AsCommandClass
    ensures forall a :: a in attrs && a.className == AsCommandClass ==> a in r
    decreases |attrs|
  {
    if attrs == [] then []
    else (if attrs[0].className == AsCommandClass then [attrs[0]] else []) + CommandAttributes(attrs[1..])
  }

  /** The attribute `createCommand` reads as `[0]` is the first `AsCommand`
      attribute declared on the class. */
  lemma {:induction false} FirstAttributeIsFirstDeclared(attrs: seq<Attribute>, k: int)
    requires 0 <= k < |attrs| && attrs[k].className == AsCommandClass
    requires forall j :: 0 <= j < k ==> attrs[j].className != AsCommandClass
    ensures CommandAttributes(attrs) != [] && CommandAttributes(attrs)[0] == attrs[k]
    decreases k
  {
    if k > 0 {
      assert attrs[1..][k - 1] == attrs[k];
      FirstAttributeIsFirstDeclared(attrs[1..], k - 1);
    }
  }

  /** The attributes of a concatenation are those of each part, in order. */
  lemma {:induction false} CommandAttributesAppend(a: seq<Attribute>, b: seq<Attribute>)
    ensures CommandAttributes(a + b) == CommandAttributes(a) + CommandAttributes(b)
    decreases |a|
  {
    if a == [] {
      assert a + b == b;
    } else {
      assert (a + b)[1..] == a[1..] + b;
      CommandAttributesAppend(a[1..], b);
    }
  }

  predicate IsMarked(rt: Runtime, className: string) {
    CommandAttributes(rt.attributesOf(className)) != []
  }

  /** The memo left behind and what `createCommand` returned or threw. */
  datatype Created = Created(definitions: map<string, Definition>, result: Result<(string, Instance)>)

  /** `[$def[0], $def[1]->newInstanceWithoutConstructor()]`. */
  function Instantiate(rt: Runtime, className: string, name: string): Result<(string, Instance)> {
    if rt.instantiable(className) then Ok((name, Bare(className))) else Err(NotInstantiable(className))
  }

  /** The message of the error for a class without an `AsCommand` attribute. */
  function NotMarked(className: string): string {
    className + " is not a command."
  }

  /** The message of the error `get` raises for a class that does not extend
      `Command`. */
  function NotASubclass(className: string): string {
    "Class \"" + className + "\" does not extend \"" + CommandClass + "\""
  }

  /** `createCommand($className)` with the command name taken from the first
      `AsCommand` attribute by `nameOf`. The memo entry is written before the
      instance is made, so a class that cannot be instantiated is memoized
      all the same. */
  function CreateCommandWith(memo: map<string, Definition>, className: string, rt: Runtime,
                             nameOf: Attribute -> string): (c: Created)
    ensures className in memo ==> c.definitions == memo
    ensures className in memo ==>
      c.result == (if rt.instantiable(className) then Ok((memo[className].name, Bare(className)))
                   else Err(NotInstantiable(className)))
    ensures className !in memo && (!rt.classExists(className) || !IsMarked(rt, className)) ==>
      c.definitions == memo && c.result.Err?
    ensures className !in memo && !rt.classExists(className) ==> c.result == Err(ReflectionFailure(className))
    ensures className !in memo && rt.classExists(className) && !IsMarked(rt, className) ==>
      c.result == Err(InvalidArgument(NotMarked(className)))
    ensures className !in memo && rt.classExists(className) && IsMarked(rt, className) ==>
      var name := nameOf(CommandAttributes(rt.attributesOf(className))[0]);
      && c.definitions == memo[className := Definition(name)]
      && c.result == (if rt.instantiable(className) then Ok((name, Bare(className))) else Err(NotInstantiable(className)))
  {
    if className in memo then Created(memo, Instantiate(rt, className, memo[className].name))
    else if !rt.classExists(className) then Created(memo, Err(ReflectionFailure(className)))
    else
      var attrs := CommandAttributes(rt.attributesOf(className));
      if attrs == [] then Created(memo, Err(InvalidArgument(NotMarked(className))))
      else
        var def := Definition(nameOf(attrs[0]));
        Created(memo[className := def], Instantiate(rt, className, def.name))
  }

  /** `createCommand`, naming the command by the `name` its `AsCommand`
      attribute declares: it fails exactly for an unmemoized class that does
      not exist or carries no `AsCommand` attribute, and for a class that
      cannot be instantiated; only an existing marked class is memoized. */
  function CreateCommand(memo: map<string, Definition>, className: string, rt: Runtime): (c: Created)
    ensures c.result.Err? <==>
      (className !in memo && (!rt.classExists(className) || !IsMarked(rt, className))) || !rt.instantiable(className)
    ensures c.result.Ok? ==>
      className in c.definitions && c.result.value == (c.definitions[className].name, Bare(className))
    ensures className !in memo && rt.classExists(className) && IsMarked(rt, className) ==>
      c.definitions == memo[className := Definition(CommandAttributes(rt.attributesOf(className))[0].commandName)]
    ensures className in memo || !rt.classExists(className) || !IsMarked(rt, className) ==> c.definitions == memo
    ensures className !in memo && !rt.classExists(className) ==> c.result == Err(ReflectionFailure(className))
    ensures className !in memo && rt.classExists(className) && !IsMarked(rt, className) ==>
      c.result == Err(InvalidArgument(NotMarked(className)))
  {
    CreateCommandWith(memo, className, rt, (a: Attribute) => a.commandName)
  }

  /** Once created, a command is answered from the memo: the memo stays as it
      is, and the same name and class come back whatever reflection would now
      say about the class's existence or attributes. */
  lemma CreateCommandRepeats(memo: map<string, Definition>, className: string, rt: Runtime, rt2: Runtime)
    requires CreateCommand(memo, className, rt).result.Ok?
    ensures var c := CreateCommand(memo, className, rt);
      && CreateCommand(c.definitions, className, rt2).definitions == c.definitions
      && (rt2.instantiable(className) ==> CreateCommand(c.definitions, className, rt2) == c)
  {
  }

  /** `createCommand` as written: `getName()` of a ReflectionAttribute is the
      attribute's class name. */
  function CreateCommandAsWritten(memo: map<string, Definition>, className: string, rt: Runtime): (c: Created)
    ensures className !in memo && c.result.Ok? ==> c.result.value.0 == AsCommandClass
  {
    CreateCommandWith(memo, className, rt, (a: Attribute) => a.className)
  }

  /** As written, two different commands get the same registered name; the
      corrected definition keeps their declared names apart. */
  lemma AsWrittenConflatesCommands(rt: Runtime, class1: string, class2: string)
    requires rt.classExists(class1) && rt.classExists(class2)
    requires IsMarked(rt, class1) && IsMarked(rt, class2)
    requires rt.instantiable(class1) && rt.instantiable(class2)
    requires CommandAttributes(rt.attributesOf(class1))[0].commandName != CommandAttributes(rt.attributesOf(class2))[0].commandName
    ensures CreateCommandAsWritten(map[], class1, rt).result.value.0 == CreateCommandAsWritten(map[], class2, rt).result.value.0
    ensures CreateCommand(map[], class1, rt).result.value.0 != CreateCommand(map[], class2, rt).result.value.0
  {
  }

  /** The file `get` looks for: `.php` is appended unless already there. */
  function NormalizeFileName(name: string): (fileName: string)
    ensures Strings.EndsWith(fileName, PhpExtension)
    ensures Strings.EndsWith(name, PhpExtension) ==> fileName == name
    ensures !Strings.EndsWith(name, PhpExtension) ==> fileName == name + PhpExtension
  {
    if Strings.EndsWith(name, PhpExtension) then name
    else
      assert (name + PhpExtension)[|name|..] == PhpExtension;
      name + PhpExtension
  }

  lemma NormalizeIdempotent(name: string)
    ensures NormalizeFileName(NormalizeFileName(name)) == NormalizeFileName(name)
  {
  }

  /** The caches left behind and the `[name, instance]` pair made, or the
      error raised on the way. */
  datatype Made = Made(caches: Caches, result: Result<(string, Instance)>)

  /** The part of `get` below its own cache: resolve the file, discover its
      class, require a `Command` subclass, create the command. */
  function LoadCommand(caches: Caches, rt: Runtime, resolver: Filesystem.Resolver, name: string): (m: Made)
    ensures var file := Filesystem.Resolve(rt.config.fs, resolver, [NormalizeFileName(name)]);
      m.result.Ok? ==>
        && file in m.caches.classes
        && var cls := m.caches.classes[file];
           && rt.isCommand(cls)
           && cls in m.caches.definitions
           && m.result.value == (m.caches.definitions[cls].name, Bare(cls))
    ensures var file := Filesystem.Resolve(rt.config.fs, resolver, [NormalizeFileName(name)]);
      var found := ClassDiscovery.GetClassFromFile(caches.classes, file, rt.tokenize, rt.classExists);
      && m.caches.classes == found.cache
      && (found.result.Err? ==> m.result == Err(found.result.error) && m.caches.definitions == caches.definitions)
      && (found.result.Ok? && !rt.isCommand(found.result.value) ==>
            && m.result == Err(InvalidArgument(NotASubclass(found.result.value)))
            && m.caches.definitions == caches.definitions)
      && (found.result.Ok? && rt.isCommand(found.result.value) ==>
            var created := CreateCommand(caches.definitions, found.result.value, rt);
            && m.caches.definitions == created.definitions
            && (m.result.Ok? <==> created.result.Ok?)
            && (created.result.Err? ==> m.result == Err(created.result.error)))
  {
    var file := Filesystem.Resolve(rt.config.fs, resolver, [NormalizeFileName(name)]);
    var found := ClassDiscovery.GetClassFromFile(caches.classes, file, rt.tokenize, rt.classExists);
    var caches1 := caches.(classes := found.cache);
    match found.result
    case Err(e) => Made(caches1, Err(e))
    case Ok(cls) =>
      if !rt.isCommand(cls) then
        Made(caches1, Err(InvalidArgument(NotASubclass(cls))))
      else
        var created := CreateCommand(caches1.definitions, cls, rt);
        Made(caches1.(definitions := created.definitions), created.result)
  }

  /** A name with and without its `.php` reaches the same file. */
  lemma BothSpellingsLoadTheSameFile(caches: Caches, rt: Runtime, resolver: Filesystem.Resolver, name: string)
    ensures LoadCommand(caches, rt, resolver, name) == LoadCommand(caches, rt, resolver, NormalizeFileName(name))
  {
    NormalizeIdempotent(name);
  }

  /** The loader after construction: its resolver, `$this->commands` and the
      static caches. */
  datatype Loader = Loader(resolver: Filesystem.Resolver, commands: OrderedMaps.OrderedMap<Instance>, caches: Caches)

  datatype Got = Got(loader: Loader, result: Result<Instance>)

  /** `get($name)`, returning the instance it stores: a name already stored
      is answered from `$this->commands`; otherwise the command is loaded and
      stored under the name exactly as given. */
  function Get(loader: Loader, rt: Runtime, name: string): (g: Got)
    requires OrderedMaps.Valid(loader.commands)
    ensures OrderedMaps.Valid(g.loader.commands) && g.loader.resolver == loader.resolver
    ensures name in loader.commands.values ==> g == Got(loader, Ok(loader.commands.values[name]))
    ensures g.result.Ok? ==> name in g.loader.commands.values && g.loader.commands.values[name] == g.result.value
    ensures name !in loader.commands.values && g.result.Ok? ==>
      g.loader.commands.keys == loader.commands.keys + [name]
      && g.loader.commands.values == loader.commands.values[name := g.result.value]
    ensures g.result.Err? ==> g.loader.commands == loader.commands
    ensures name !in loader.commands.values ==>
      g.result == (match LoadCommand(loader.caches, rt, loader.resolver, name).result
                   case Err(e) => Err(e) case Ok(pair) => Ok(pair.1))
    ensures name !in loader.commands.values ==> g.loader.caches == LoadCommand(loader.caches, rt, loader.resolver, name).caches
  {
    if name in loader.commands.values then Got(loader, Ok(loader.commands.values[name]))
    else
      var made := LoadCommand(loader.caches, rt, loader.resolver, name);
      match made.result
      case Err(e) => Got(loader.(caches := made.caches), Err(e))
      case Ok(pair) =>
        Got(Loader(loader.resolver, OrderedMaps.Put(loader.commands, name, pair.1), made.caches), Ok(pair.1))
  }

  /** A class that is not a `Command` subclass is rejected and nothing is
      stored. */
  lemma NonCommandIsRejected(loader: Loader, rt: Runtime, name: string)
    requires OrderedMaps.Valid(loader.commands)
    requires name !in loader.commands.values
    requires var file := Filesystem.Resolve(rt.config.fs, loader.resolver, [NormalizeFileName(name)]);
      var found := ClassDiscovery.GetClassFromFile(loader.caches.classes, file, rt.tokenize, rt.classExists);
      found.result.Ok? && !rt.isCommand(found.result.value)
    ensures Get(loader, rt, name).result.Err? && Get(loader, rt, name).result.error.InvalidArgument?
    ensures Get(loader, rt, name).loader.commands == loader.commands
  {
  }

  /** A second `get` of a name that succeeded returns the stored instance
      without resolving anything. */
  lemma GetRepeats(loader: Loader, rt: Runtime, rt2: Runtime, name: string)
    requires OrderedMaps.Valid(loader.commands)
    requires Get(loader, rt, name).result.Ok?
    ensures var g := Get(loader, rt, name);
      Get(g.loader, rt2, name) == g
  {
  }

  /** `has($name)`: whether `get` succeeds; every failure becomes false. The
      caches `get` filled on the way stay filled. */
  function Has(loader: Loader, rt: Runtime, name: string): (r: (Loader, bool))
    requires OrderedMaps.Valid(loader.commands)
    ensures r.1 <==> Get(loader, rt, name).result.Ok?
    ensures r.0 == Get(loader, rt, name).loader
  {
    var g := Get(loader, rt, name);
    (g.loader, g.result.Ok?)
  }

  /** `getNames()`: the stored names, each once, in first-insertion order. */
  function GetNames(loader: Loader): (names: seq<string>)
    requires OrderedMaps.Valid(loader.commands)
    ensures forall i, j :: 0 <= i < j < |names| ==> names[i] != names[j]
    ensures forall n :: n in names <==> n in loader.commands.values
  {
    loader.commands.keys
  }

  /** `get` of a new name appends it to the names; anything else leaves them. */
  lemma GetNamesInInsertionOrder(loader: Loader, rt: Runtime, name: string)
    requires OrderedMaps.Valid(loader.commands)
    ensures var g := Get(loader, rt, name);
      GetNames(g.loader) == if name !in loader.commands.values && g.result.Ok? then GetNames(loader) + [name] else GetNames(loader)
  {
  }

  /** `$this->commands` and the caches after `get` as written, and its
      outcome. */
  datatype GotAsWritten = GotAsWritten(commands: OrderedMaps.OrderedMap<(string, Instance)>, caches: Caches, result: Result<Instance>)

  /** `get($name)` as written: it stores and returns the `[name, instance]`
      array `createCommand` gives, which the declared return type `Command`
      rejects, on the first call and on every cached call after it. */
  function GetAsWritten(commands: OrderedMaps.OrderedMap<(string, Instance)>, caches: Caches,
                        resolver: Filesystem.Resolver, rt: Runtime, name: string): (g: GotAsWritten)
    requires OrderedMaps.Valid(commands)
    ensures g.result == Err(TypeError(ArrayReturned))
      || (LoadCommand(caches, rt, resolver, name).result.Err? && g.result == Err(LoadCommand(caches, rt, resolver, name).result.error))
    ensures name !in commands.values && LoadCommand(caches, rt, resolver, name).result.Ok? ==> name in g.commands.values
  {
    if name in commands.values then GotAsWritten(commands, caches, Err(TypeError(ArrayReturned)))
    else
      var made := LoadCommand(caches, rt, resolver, name);
      match made.result
      case Err(e) => GotAsWritten(commands, made.caches, Err(e))
      case Ok(pair) => GotAsWritten(OrderedMaps.Put(commands, name, pair), made.caches, Err(TypeError(ArrayReturned)))
  }

  /** `has($name)` as written: always false. */
  function HasAsWritten(commands: OrderedMaps.OrderedMap<(string, Instance)>, caches: Caches,
                        resolver: Filesystem.Resolver, rt: Runtime, name: string): (found: bool)
    requires OrderedMaps.Valid(commands)
    ensures !found
  {
    GetAsWritten(commands, caches, resolver, rt, name).result.Ok?
  }

  /** Wherever a command loads, the corrected `get` and `has` succeed while
      the code as written fails and answers false. */
  lemma GetAsWrittenLosesEveryCommand(caches: Caches, resolver: Filesystem.Resolver, rt: Runtime, name: string)
    requires LoadCommand(caches, rt, resolver, name).result.Ok?
    ensures Get(Loader(resolver, OrderedMaps.Empty(), caches), rt, name).result.Ok?
    ensures Has(Loader(resolver, OrderedMaps.Empty(), caches), rt, name).1
    ensures GetAsWritten(OrderedMaps.Empty(), caches, resolver, rt, name).result.Err?
    ensures !HasAsWritten(OrderedMaps.Empty(), caches, resolver, rt, name)
  {
  }

  /** One step of the constructor's loop: the class of the file, then its
      command definition. */
  function RegisterOne(caches: Caches, rt: Runtime, file: string): (m: Made)
    ensures m.result.Ok? ==> file in m.caches.classes && m.caches.classes[file] in m.caches.definitions
    ensures m.result.Ok? ==> m.result.value.0 == m.caches.definitions[m.caches.classes[file]].name
    ensures var found := ClassDiscovery.GetClassFromFile(caches.classes, file, rt.tokenize, rt.classExists);
      && m.caches.classes == found.cache
      && (found.result.Err? ==> m.result == Err(found.result.error) && m.caches.definitions == caches.definitions)
      && (found.result.Ok? ==>
            var created := CreateCommand(caches.definitions, found.result.value, rt);
            && m.caches.definitions == created.definitions
            && (m.result.Ok? <==> created.result.Ok?)
            && (created.result.Err? ==> m.result == Err(created.result.error)))
  {
    var found := ClassDiscovery.GetClassFromFile(caches.classes, file, rt.tokenize, rt.classExists);
    var caches1 := caches.(classes := found.cache);
    match found.result
    case Err(e) => Made(caches1, Err(e))
    case Ok(cls) =>
      var created := CreateCommand(caches1.definitions, cls, rt);
      Made(caches1.(definitions := created.definitions), created.result)
  }

  datatype Registered = Registered(caches: Caches, result: Result<seq<string>>)

  /** What the constructor's `foreach` promises over a per-file `step`: no
      files register nothing; a completed scan names every file, starting
      with the first file's command; a failing first file aborts with its
      caches and error; a single file gives its step's caches with its name
      or its error. */
  predicate Scans(step: (Caches, string) -> Made, caches: Caches, files: seq<string>, r: Registered) {
    && (files == [] ==> r == Registered(caches, Ok([])))
    && (r.result.Ok? ==> |r.result.value| == |files|)
    && (|files| > 0 ==>
          var first := step(caches, files[0]);
          && (r.result.Ok? ==> first.result.Ok? && r.result.value[0] == first.result.value.0)
          && (first.result.Err? ==> r == Registered(first.caches, Err(first.result.error)))
          && (|files| == 1 && first.result.Ok? ==> r == Registered(first.caches, Ok([first.result.value.0]))))
  }

  /** The constructor's `foreach` over any per-file step: every file in
      order, the names collected, and an abort at the first file that fails. */
  function RegisterEach(step: (Caches, string) -> Made, caches: Caches, files: seq<string>): (r: Registered)
    ensures Scans(step, caches, files, r)
    decreases |files|
  {
    if files == [] then Registered(caches, Ok([]))
    else
      var first := step(caches, files[0]);
      match first.result
      case Err(e) => Registered(first.caches, Err(e))
      case Ok(pair) =>
        var rest := RegisterEach(step, first.caches, files[1..]);
        assert |files| == 1 ==> rest == Registered(first.caches, Ok([])) && [pair.0] + [] == [pair.0];
        match rest.result
        case Err(e) => Registered(rest.caches, Err(e))
        case Ok(names) => Registered(rest.caches, Ok([pair.0] + names))
  }

  /** The constructor's loop: each file's class, then its command. */
  function RegisterAll(caches: Caches, rt: Runtime, files: seq<string>): (r: Registered)
    ensures Scans((c: Caches, f: string) => RegisterOne(c, rt, f), caches, files, r)
  {
    RegisterEach((c: Caches, f: string) => RegisterOne(c, rt, f), caches, files)
  }

  /** Continue a scan that stopped after some files with the files `b`. */
  function Continue(step: (Caches, string) -> Made, ra: Registered, b: seq<string>): Registered {
    match ra.result
    case Err(_) => ra
    case Ok(na) =>
      var rb := RegisterEach(step, ra.caches, b);
      match rb.result
      case Err(_) => rb
      case Ok(nb) => Registered(rb.caches, Ok(na + nb))
  }

  /** The scan of `a + b` is the scan of `a` continued with `b`: names in
      file order, and nothing after the first failure is looked at. */
  lemma {:induction false} RegisterEachAppend(step: (Caches, string) -> Made, caches: Caches, a: seq<string>, b: seq<string>)
    ensures RegisterEach(step, caches, a + b) == Continue(step, RegisterEach(step, caches, a), b)
    decreases |a|
  {
    if a == [] {
      assert a + b == b;
      var rb := RegisterEach(step, caches, b);
      if rb.result.Ok? {
        assert [] + rb.result.value == rb.result.value;
      }
    } else {
      assert (a + b)[0] == a[0] && (a + b)[1..] == a[1..] + b;
      var first := step(caches, a[0]);
      if first.result.Ok? {
        RegisterEachAppend(step, first.caches, a[1..], b);
        var ra := RegisterEach(step, first.caches, a[1..]);
        if ra.result.Ok? {
          var rb := RegisterEach(step, ra.caches, b);
          if rb.result.Ok? {
            assert [first.result.value.0] + (ra.result.value + rb.result.value)
                == ([first.result.value.0] + ra.result.value) + rb.result.value;
          }
        }
      }
    }
  }

  /** A loader whose one-time scan has run, what it registered with the
      application, and the configuration cache it left. */
  datatype Started = Started(loader: Loader, registered: seq<string>, configCache: Configuration.Cache)

  /** `getConfigurationOption('autoloader.paths.commands')` on a host that
      has not loaded its configuration yet. */
  function CommandsDirectory(configCache: Configuration.Cache, rt: Runtime): Configuration.Answer {
    Configuration.GetConfigurationOption(
      Configuration.Host(Configuration.DefaultNamespace, None), configCache, rt.config, CommandsOption, Configuration.Null)
  }

  /** `globRecursive('*.php')` under the resolver, then the loop over it. */
  function ScanCommands(resolver: Filesystem.Resolver, caches: Caches, rt: Runtime): Registered {
    match Filesystem.GlobRecursive(rt.config.fs, resolver, CommandPattern, rt.fnmatch)
    case Err(e) => Registered(caches, Err(e))
    case Ok(files) => RegisterAll(caches, rt, files)
  }

  /** What the constructor promises once `getConfigurationOption` has
      answered `answer`: an error answer, a null directory and an array
      directory fail; for a string, a failure to make the resolver, to glob
      `*.php` under it or to register a file is the result; otherwise the
      loader holds that resolver, an empty command map and the caches the
      registration left, and the registered names are the scan's. */
  predicate StartsFrom(answer: Configuration.Answer, caches: Caches, rt: Runtime, r: Result<Started>) {
    && (answer.result.Err? ==> r == Err(answer.result.error))
    && (answer.result.Ok? && answer.result.value.Null? ==> r == Err(TypeError(NullDirectory)))
    && (answer.result.Ok? && answer.result.value.Tree? ==> r == Err(TypeError(ArrayDirectory)))
    && (answer.result.Ok? && answer.result.value.Scalar? ==>
          var created := Filesystem.Create(rt.config.fs, rt.config.projectRoot, answer.result.value.text);
          && (created.Err? ==> r == Err(created.error))
          && (created.Ok? ==>
                var files := Filesystem.GlobRecursive(rt.config.fs, created.value, CommandPattern, rt.fnmatch);
                && (files.Err? ==> r == Err(files.error))
                && (files.Ok? ==>
                      var registered := RegisterAll(caches, rt, files.value);
                      && (registered.result.Err? ==> r == Err(registered.result.error))
                      && (registered.result.Ok? ==>
                            && r.Ok?
                            && r.value.loader == Loader(created.value, OrderedMaps.Empty(), registered.caches)
                            && r.value.registered == registered.result.value
                            && |r.value.registered| == |files.value|
                            && r.value.configCache == answer.cache))))
  }

  /** The constructor after its configuration read: `answer` is what
      `getConfigurationOption` answered. A resolver is made for the directory,
      `*.php` is globbed under it and every file registered; any failure
      aborts construction. `$this->commands` starts empty. */
  function Start(answer: Configuration.Answer, caches: Caches, rt: Runtime): (r: Result<Started>)
    ensures r.Ok? ==> OrderedMaps.Valid(r.value.loader.commands) && GetNames(r.value.loader) == []
    ensures StartsFrom(answer, caches, rt, r)
  {
    match answer.result
    case Err(e) => Err(e)
    case Ok(Null) => Err(TypeError(NullDirectory))
    case Ok(Tree(_)) => Err(TypeError(ArrayDirectory))
    case Ok(Scalar(directory)) =>
      match Filesystem.Create(rt.config.fs, rt.config.projectRoot, directory)
      case Err(e) => Err(e)
      case Ok(resolver) =>
        var registered := ScanCommands(resolver, caches, rt);
        match registered.result
        case Err(e) => Err(e)
        case Ok(names) => Ok(Started(Loader(resolver, OrderedMaps.Empty(), registered.caches), names, answer.cache))
  }

  /** The constructor: read the commands directory from the configuration,
      then start from it. */
  function Construct(configCache: Configuration.Cache, caches: Caches, rt: Runtime): (r: Result<Started>)
    ensures r.Ok? ==> OrderedMaps.Valid(r.value.loader.commands) && GetNames(r.value.loader) == []
    ensures StartsFrom(CommandsDirectory(configCache, rt), caches, rt, r)
  {
    Start(CommandsDirectory(configCache, rt), caches, rt)
  }

  /** The lazy proxy: construction deferred until first use. */
  datatype Proxy = Pending | Ready(started: Started)

  /** `initializeLazyObject()`: runs the constructor the first time only. */
  function Initialize(p: Proxy, configCache: Configuration.Cache, caches: Caches, rt: Runtime): (r: Result<Proxy>)
    ensures p.Ready? ==> r == Ok(p)
    ensures p.Pending? ==> (r.Ok? <==> Construct(configCache, caches, rt).Ok?)
    ensures r.Ok? ==> r.value.Ready?
    ensures p.Pending? && Construct(configCache, caches, rt).Ok? ==> r == Ok(Ready(Construct(configCache, caches, rt).value))
    ensures p.Pending? && Construct(configCache, caches, rt).Err? ==> r == Err(Construct(configCache, caches, rt).error)
  {
    match p
    case Ready(_) => Ok(p)
    case Pending =>
      match Construct(configCache, caches, rt)
      case Err(e) => Err(e)
      case Ok(started) => Ok(Ready(started))
  }

  /** The scan runs at most once: initializing an initialized proxy, with any
      state and oracles, changes nothing. */
  lemma ScanRunsOnce(p: Proxy, configCache: Configuration.Cache, caches: Caches, rt: Runtime,
                     configCache2: Configuration.Cache, caches2: Caches, rt2: Runtime)
    ensures var r := Initialize(p, configCache, caches, rt);
      r.Ok? ==> Initialize(r.value, configCache2, caches2, rt2) == r
  {
  }

  /** `getNames()` through the proxy: initialize, then the stored names. */
  function NamesOf(p: Proxy, configCache: Configuration.Cache, caches: Caches, rt: Runtime): (r: Result<(Proxy, seq<string>)>)
    requires p.Ready? ==> OrderedMaps.Valid(p.started.loader.commands)
    ensures p.Ready? ==> r == Ok((p, GetNames(p.started.loader)))
    ensures var q := Initialize(p, configCache, caches, rt);
      && (q.Err? ==> r == Err(q.error))
      && (q.Ok? ==> r.Ok? && r.value.0 == q.value)
    ensures r.Ok? ==>
      && r.value.0.Ready? && OrderedMaps.Valid(r.value.0.started.loader.commands)
      && r.value.1 == GetNames(r.value.0.started.loader)
    ensures p.Pending? && r.Ok? ==> r.value.1 == []
  {
    match Initialize(p, configCache, caches, rt)
    case Err(e) => Err(e)
    case Ok(q) => Ok((q, GetNames(q.started.loader)))
  }
}

=== FILE: class_discovery.dfy ===
/** Static discovery of the class a PHP source file declares, from its token
    stream (`getClassFromFile` in src/Console/Autoloader.php). Reading and
    tokenising the file is an oracle; the scan over the tokens is modelled. */
module ClassDiscovery {
  import opened Optional
  import opened Errors

  /** The token identifiers the scan distinguishes (T_NAMESPACE, T_CLASS). */
  datatype TokenKind = NamespaceKeyword | ClassKeyword | OtherKind(id: int)

  /** An element of `token_get_all`'s result: an array `[id, text, line]`
      or a one-character string such as `;` or `{`. */
  datatype Token = Word(kind: TokenKind, text: string) | Char(c: char)

  predicate Is(t: Token, k: TokenKind) {
    t.Word? && t.kind == k
  }

  /** `$tokens[$j]`: null past the end. */
  function TokenAt(tokens: seq<Token>, j: int): Option<Token> {
    if 0 <= j < |tokens| then Some(tokens[j]) else None
  }

  /** `$t[1]` used as a string: the text of an array token; "" for a
      one-character string (an out-of-range offset) and for null. */
  function TextOf(t: Option<Token>): string {
    match t
    case Some(Word(_, text)) => text
    case _ => ""
  }

  /** `$classNamespace` and `$classToken` during the `foreach`. */
  datatype ScanState = ScanState(namespace: string, classToken: Option<Token>)

  /** The `foreach` from position `i` on: a namespace keyword appends the text
      two tokens on and a backslash; a class keyword replaces the class token
      with the token two on. */
  function ScanFrom(tokens: seq<Token>, i: nat, st: ScanState): ScanState
    requires i <= |tokens|
    decreases |tokens| - i
  {
    if i == |tokens| then st
    else if Is(tokens[i], NamespaceKeyword) then
      ScanFrom(tokens, i + 1, st.(namespace := st.namespace + TextOf(TokenAt(tokens, i + 2)) + "\\"))
    else if Is(tokens[i], ClassKeyword) then
      ScanFrom(tokens, i + 1, st.(classToken := TokenAt(tokens, i + 2)))
    else ScanFrom(tokens, i + 1, st)
  }

  function Scan(tokens: seq<Token>): ScanState {
    ScanFrom(tokens, 0, ScanState("", None))
  }

  /** Reference: the namespace texts of the first `n` positions, each
      followed by a backslash, in order. */
  function NamespacePrefix(tokens: seq<Token>, n: nat): string
    requires n <= |tokens|
    decreases n
  {
    if n == 0 then ""
    else
      var here := if Is(tokens[n - 1], NamespaceKeyword) then TextOf(TokenAt(tokens, n + 1)) + "\\" else "";
      NamespacePrefix(tokens, n - 1) + here
  }

  /** Reference: the position of the last class keyword among the first `n`. */
  function LastClass(tokens: seq<Token>, n: nat): (r: Option<nat>)
    requires n <= |tokens|
    ensures r.Some? ==> r.value < n && Is(tokens[r.value], ClassKeyword)
    ensures r.Some? ==> forall k :: r.value < k < n ==> !Is(tokens[k], ClassKeyword)
    ensures r.None? ==> forall k :: 0 <= k < n ==> !Is(tokens[k], ClassKeyword)
    decreases n
  {
    if n == 0 then None
    else if Is(tokens[n - 1], ClassKeyword) then Some(n - 1)
    else LastClass(tokens, n - 1)
  }

  /** The token two after a class keyword position, or null without one. */
  function ClassTokenAfter(tokens: seq<Token>, position: Option<nat>): Option<Token> {
    match position
    case None => None
    case Some(i) => TokenAt(tokens, i + 2)
  }

  function Reference(tokens: seq<Token>, n: nat): ScanState
    requires n <= |tokens|
  {
    ScanState(NamespacePrefix(tokens, n), ClassTokenAfter(tokens, LastClass(tokens, n)))
  }

  lemma {:induction false} ScanFromReference(tokens: seq<Token>, i: nat)
    requires i <= |tokens|
    ensures ScanFrom(tokens, i, Reference(tokens, i)) == Reference(tokens, |tokens|)
    decreases |tokens| - i
  {
    if i < |tokens| {
      ScanFromReference(tokens, i + 1);
      var st := Reference(tokens, i);
      if Is(tokens[i], NamespaceKeyword) {
        assert Reference(tokens, i + 1) == st.(namespace := st.namespace + TextOf(TokenAt(tokens, i + 2)) + "\\");
      } else if Is(tokens[i], ClassKeyword) {
        assert NamespacePrefix(tokens, i + 1) == NamespacePrefix(tokens, i) + "";
        assert Reference(tokens, i + 1) == st.(classToken := TokenAt(tokens, i + 2));
      } else {
        assert NamespacePrefix(tokens, i + 1) == NamespacePrefix(tokens, i) + "";
        assert Reference(tokens, i + 1) == st;
      }
    }
  }

  /** The loop computes the reference: every namespace in order, then the
      token after the LAST class keyword. */
  lemma ScanComputesReference(tokens: seq<Token>)
    ensures Scan(tokens) == Reference(tokens, |tokens|)
  {
    ScanFromReference(tokens, 0);
  }

  /** Neither a namespace nor a class keyword. */
  predicate Plain(t: Token) {
    !Is(t, NamespaceKeyword) && !Is(t, ClassKeyword)
  }

  lemma {:induction false} PrefixUnchanged(tokens: seq<Token>, a: nat, b: nat)
    requires a <= b <= |tokens|
    requires forall k :: a <= k < b ==> !Is(tokens[k], NamespaceKeyword)
    ensures NamespacePrefix(tokens, b) == NamespacePrefix(tokens, a)
    decreases b
  {
    if a < b {
      PrefixUnchanged(tokens, a, b - 1);
      assert NamespacePrefix(tokens, b) == NamespacePrefix(tokens, b - 1) + "";
    }
  }

  /** Where the parts of a typical file sit in its token sequence: the
      keywords and names at fixed offsets, plain tokens everywhere else. */
  lemma TypicalFileLayout(head: seq<Token>, ws: Token, ns: string, id: int, middle: seq<Token>,
                          ws2: Token, cls: string, id2: int, tail: seq<Token>)
    requires forall t :: t in head + middle + tail ==> Plain(t)
    ensures var tokens := head + [Word(NamespaceKeyword, "namespace"), ws, Word(OtherKind(id), ns), Char(';')]
                          + middle + [Word(ClassKeyword, "class"), ws2, Word(OtherKind(id2), cls)] + tail;
      var h := |head|;
      var j := h + 4 + |middle|;
      && |tokens| == j + 3 + |tail|
      && tokens[h] == Word(NamespaceKeyword, "namespace") && tokens[h + 1] == ws
      && tokens[h + 2] == Word(OtherKind(id), ns) && tokens[h + 3] == Char(';')
      && tokens[j] == Word(ClassKeyword, "class") && tokens[j + 1] == ws2
      && tokens[j + 2] == Word(OtherKind(id2), cls)
      && (forall k :: 0 <= k < h ==> Plain(tokens[k]))
      && (forall k :: h + 4 <= k < j ==> Plain(tokens[k]))
      && (forall k :: j + 3 <= k < |tokens| ==> Plain(tokens[k]))
  {
    var tokens := head + [Word(NamespaceKeyword, "namespace"), ws, Word(OtherKind(id), ns), Char(';')]
                  + middle + [Word(ClassKeyword, "class"), ws2, Word(OtherKind(id2), cls)] + tail;
    var h := |head|;
    var j := h + 4 + |middle|;
    forall k | 0 <= k < h ensures Plain(tokens[k]) {
      assert tokens[k] == head[k] && head[k] in head + middle + tail;
    }
    forall k | h + 4 <= k < j ensures Plain(tokens[k]) {
      assert tokens[k] == middle[k - h - 4] && middle[k - h - 4] in head + middle + tail;
    }
    forall k | j + 3 <= k < |tokens| ensures Plain(tokens[k]) {
      assert tokens[k] == tail[k - j - 3] && tail[k - j - 3] in head + middle + tail;
    }
  }

  /** A file with one `namespace N;` and, later, one `class C`: the name
      found is `N\C`. */
  lemma TypicalFile(head: seq<Token>, ws: Token, ns: string, id: int, middle: seq<Token>,
                    ws2: Token, cls: string, id2: int, tail: seq<Token>)
    requires forall t :: t in head + middle + tail ==> Plain(t)
    requires Plain(ws) && Plain(ws2)
    ensures var tokens := head + [Word(NamespaceKeyword, "namespace"), ws, Word(OtherKind(id), ns), Char(';')]
                          + middle + [Word(ClassKeyword, "class"), ws2, Word(OtherKind(id2), cls)] + tail;
      ExtractedName(tokens) == Some(ns + "\\" + cls)
  {
    var tokens := head + [Word(NamespaceKeyword, "namespace"), ws, Word(OtherKind(id), ns), Char(';')]
                  + middle + [Word(ClassKeyword, "class"), ws2, Word(OtherKind(id2), cls)] + tail;
    TypicalFileLayout(head, ws, ns, id, middle, ws2, cls, id2, tail);
    var h := |head|;
    var j := h + 4 + |middle|;
    PrefixUnchanged(tokens, 0, h);
    assert NamespacePrefix(tokens, h + 1) == ns + "\\";
    PrefixUnchanged(tokens, h + 1, |tokens|);
    assert LastClass(tokens, |tokens|) == Some(j);
    ScanComputesReference(tokens);
  }

  /** The name the scan extracts, None when the class token is null. */
  function ExtractedName(tokens: seq<Token>): Option<string> {
    var st := Scan(tokens);
    if st.classToken.None? then None else Some(st.namespace + TextOf(st.classToken))
  }

  /** The memo left behind and what `getClassFromFile` returned or threw. */
  datatype Discovered = Discovered(cache: map<string, string>, result: Result<string>)

  /** `getClassFromFile($commandFile)` with its `static $cache`. `tokenize`
      reads and tokenises a file, None when it does not parse. */
  function GetClassFromFile(cache: map<string, string>, path: string,
                            tokenize: string -> Option<seq<Token>>, classExists: string -> bool): (d: Discovered)
    ensures path in cache ==> d == Discovered(cache, Ok(cache[path]))
    ensures d.result.Err? ==> d.cache == cache
    ensures path !in cache && d.result.Ok? ==>
      && d.cache == cache[path := d.result.value]
      && classExists(d.result.value)
      && tokenize(path).Some?
      && var tokens := tokenize(path).value;
         ClassTokenAfter(tokens, LastClass(tokens, |tokens|)).Some?
         && d.result.value == NamespacePrefix(tokens, |tokens|) + TextOf(ClassTokenAfter(tokens, LastClass(tokens, |tokens|)))
    ensures path !in cache && path == "" ==> d.result == Err(ValueError("Path cannot be empty"))
    ensures path !in cache && path != "" && tokenize(path).None? ==> d.result == Err(ParseError(path))
    ensures path !in cache && path != "" && tokenize(path).Some? ==>
      var tokens := tokenize(path).value;
      var classToken := ClassTokenAfter(tokens, LastClass(tokens, |tokens|));
      var name := NamespacePrefix(tokens, |tokens|) + TextOf(classToken);
      && (classToken.None? ==> d.result == Err(InvalidArgument("No class found in file: " + path)))
      && (classToken.Some? && !classExists(name) ==> d.result == Err(InvalidArgument("No class found: " + name)))
      && (classToken.Some? && classExists(name) ==> d == Discovered(cache[path := name], Ok(name)))
  {
    if path in cache then Discovered(cache, Ok(cache[path]))
    else if path == "" then Discovered(cache, Err(ValueError("Path cannot be empty")))
    else match tokenize(path)
      case None => Discovered(cache, Err(ParseError(path)))
      case Some(tokens) =>
        ScanComputesReference(tokens);
        match ExtractedName(tokens)
        case None => Discovered(cache, Err(InvalidArgument("No class found in file: " + path)))
        case Some(name) =>
          if !classExists(name) then Discovered(cache, Err(InvalidArgument("No class found: " + name)))
          else Discovered(cache[path := name], Ok(name))
  }

  /** A repeated call on a path that succeeded answers from the memo, the
      same name, whatever the file would now tokenise to. */
  lemma RediscoveryIsStable(cache: map<string, string>, path: string,
                            tokenize: string -> Option<seq<Token>>, classExists: string -> bool,
                            tokenize2: string -> Option<seq<Token>>, classExists2: string -> bool)
    requires GetClassFromFile(cache, path, tokenize, classExists).result.Ok?
    ensures var d := GetClassFromFile(cache, path, tokenize, classExists);
      GetClassFromFile(d.cache, path, tokenize2, classExists2) == d
  {
  }
}

=== FILE: configuration.dfy ===
/** Dotted-key configuration lookup and the per-namespace document cache
    (src/Traits/ConfigurationAwareTrait.php). YAML parsing is an oracle from
    a file path to the parsed document. */
module Configuration {
  import opened Optional
  import opened Errors
  import Strings
  import Filesystem
  import PathNotExistsException

  /** A parsed YAML value: null, a scalar (in the string form PHP coerces it
      to), or a mapping. */
  datatype Value = Null | Scalar(text: string) | Tree(entries: map<string, Value>)

  type Document = map<string, Value>

  const KeySeparator := '.'
  const DefaultNamespace := "global"
  const ConfigDirectory := "config"
  const ExtensionDot := '.'
  const YamlExtension := ".yaml"

  /** The trait's per-object state: `$configNamespace` and `$config`
      (None while uninitialized). */
  datatype Host = Host(namespace: string, config: Option<Document>)

  /** The trait's process-wide state: the `$configResolver` static and the
      `static $cache` of parsed documents by namespace. */
  datatype Cache = Cache(resolver: Option<Filesystem.Resolver>, documents: map<string, Document>)

  /** The oracles loading needs: the filesystem, the project root that
      `new Resolver` finds (None when it cannot), and the YAML parser. */
  datatype Environment = Environment(fs: Filesystem.FileSystem, projectRoot: Option<string>, parse: string -> Document)

  /** `isset($node[$segment])`: the key is present and not null. */
  predicate IsSet(node: Value, segment: string) {
    node.Tree? && segment in node.entries && !node.entries[segment].Null?
  }

  /** The `foreach` over the segments: descend while the segment is set,
      return the default at the first one that is not. */
  function LookupFrom(node: Value, path: seq<string>, default: Value): Value
    decreases |path|
  {
    if path == [] then node
    else if !IsSet(node, path[0]) then default
    else LookupFrom(node.entries[path[0]], path[1..], default)
  }

  /** The value a path reaches when every segment on the way is set. */
  function Walk(node: Value, path: seq<string>): Option<Value>
    decreases |path|
  {
    if path == [] then Some(node)
    else match node
      case Tree(entries) =>
        if path[0] in entries && entries[path[0]] != Null then Walk(entries[path[0]], path[1..]) else None
      case _ => None
  }

  /** The lookup inside `getConfigurationOption`, on a loaded document. */
  function Lookup(doc: Document, name: string, default: Value): Value {
    LookupFrom(Tree(doc), Strings.Split(name, KeySeparator), default)
  }

  /** The loop returns the reached value when every segment is set and the
      default otherwise. */
  lemma {:induction false} LookupFromWalks(node: Value, path: seq<string>, default: Value)
    ensures LookupFrom(node, path, default) == Walk(node, path).GetOr(default)
    decreases |path|
  {
    if path != [] && IsSet(node, path[0]) {
      LookupFromWalks(node.entries[path[0]], path[1..], default);
    }
  }

  /** What a non-empty path reaches is never null. */
  lemma {:induction false} WalkNeverReachesNull(node: Value, path: seq<string>)
    requires |path| > 0
    ensures Walk(node, path) != Some(Null)
    decreases |path|
  {
    if |path| > 1 && IsSet(node, path[0]) {
      WalkNeverReachesNull(node.entries[path[0]], path[1..]);
    }
  }

  /** Walking a path in two stretches is walking it at once. */
  lemma {:induction false} WalkConcat(node: Value, p: seq<string>, q: seq<string>)
    ensures Walk(node, p + q) == (match Walk(node, p) case None => None case Some(v) => Walk(v, q))
    decreases |p|
  {
    if p == [] {
      assert p + q == q;
    } else {
      assert (p + q)[0] == p[0] && (p + q)[1..] == p[1..] + q;
      if IsSet(node, p[0]) {
        WalkConcat(node.entries[p[0]], p[1..], q);
      }
    }
  }

  /** A dotted key is answered with the value its segments reach, in order;
      any absent or null segment gives the default, and the answer is the
      default or a non-null value. */
  lemma LookupFollowsSegments(doc: Document, name: string, default: Value)
    ensures Walk(Tree(doc), Strings.Split(name, KeySeparator)).Some? ==>
      Lookup(doc, name, default) == Walk(Tree(doc), Strings.Split(name, KeySeparator)).value
    ensures Walk(Tree(doc), Strings.Split(name, KeySeparator)).None? ==> Lookup(doc, name, default) == default
    ensures Lookup(doc, name, default) == default || Lookup(doc, name, default) != Null
  {
    LookupFromWalks(Tree(doc), Strings.Split(name, KeySeparator), default);
    WalkNeverReachesNull(Tree(doc), Strings.Split(name, KeySeparator));
  }

  /** `a.b` is `b` looked up inside whatever `a` reaches. */
  lemma LookupDotted(doc: Document, a: string, b: string, default: Value)
    ensures Lookup(doc, a + "." + b, default) ==
      match Walk(Tree(doc), Strings.Split(a, KeySeparator))
      case None => default
      case Some(v) => Walk(v, Strings.Split(b, KeySeparator)).GetOr(default)
  {
    assert a + "." + b == a + [KeySeparator] + b;
    Strings.SplitConcat(a, b, KeySeparator);
    WalkConcat(Tree(doc), Strings.Split(a, KeySeparator), Strings.Split(b, KeySeparator));
    LookupFromWalks(Tree(doc), Strings.Split(a + "." + b, KeySeparator), default);
  }

  /** `pathinfo($name, PATHINFO_EXTENSION)`: the text after the last dot of
      the last path component, "" when that component has no dot. */
  function Extension(name: string): string {
    var components := Strings.Split(name, Filesystem.DirectorySeparator);
    var parts := Strings.Split(components[|components| - 1], ExtensionDot);
    if |parts| > 1 then parts[|parts| - 1] else ""
  }

  /** PHP truthiness of the extension: "" and "0" are falsy. */
  predicate HasExtension(name: string) {
    Extension(name) != "" && Extension(name) != "0"
  }

  /** The file a namespace is read from: `.yaml` is appended unless the
      namespace already carries an extension. */
  function ConfigFileName(namespace: string): (fileName: string)
    ensures HasExtension(fileName)
    ensures HasExtension(namespace) ==> fileName == namespace
    ensures !HasExtension(namespace) ==> fileName == namespace + YamlExtension
  {
    if HasExtension(namespace) then namespace
    else
      YamlExtensionIsExtension(namespace);
      namespace + YamlExtension
  }

  /** Whatever precedes it, a final `.<ext>` with neither a dot nor a
      directory separator in `ext` is the extension. */
  lemma ExtensionAfterDot(name: string, ext: string)
    requires Filesystem.DirectorySeparator !in ext && ExtensionDot !in ext
    ensures Extension(name + [ExtensionDot] + ext) == ext
  {
    var components := Strings.Split(name, Filesystem.DirectorySeparator);
    var base := components[|components| - 1];
    var dotted := [ExtensionDot] + ext;
    assert name + [ExtensionDot] + ext == name + dotted;
    Strings.SplitExtendsLastPiece(name, dotted, Filesystem.DirectorySeparator);
    var full := Strings.Split(name + dotted, Filesystem.DirectorySeparator);
    assert full[|full| - 1] == base + dotted == base + [ExtensionDot] + ext;
    Strings.SplitConcat(base, ext, ExtensionDot);
    Strings.SplitWithoutSeparator(ext, ExtensionDot);
  }

  lemma YamlExtensionIsExtension(name: string)
    ensures Extension(name + YamlExtension) == "yaml"
  {
    assert YamlExtension == [ExtensionDot] + "yaml";
    assert name + YamlExtension == name + [ExtensionDot] + "yaml";
    assert Filesystem.DirectorySeparator !in "yaml" && ExtensionDot !in "yaml";
    ExtensionAfterDot(name, "yaml");
  }

  /** Deriving the file name a second time changes nothing. */
  lemma ConfigFileNameIdempotent(namespace: string)
    ensures ConfigFileName(ConfigFileName(namespace)) == ConfigFileName(namespace)
  {
  }

  /** The state after `loadConfiguration`, and whether it threw. */
  datatype Loaded = Loaded(host: Host, cache: Cache, status: Result<()>)

  /** Neither loaded on the host nor cached for its namespace: the file must
      be read. */
  predicate Fresh(host: Host, cache: Cache) {
    host.config.None? && host.namespace !in cache.documents
  }

  /** `static::$configResolver ??= new Resolver('config')`. */
  function ConfigResolver(cache: Cache, env: Environment): Result<Filesystem.Resolver> {
    match cache.resolver
    case Some(r) => Ok(r)
    case None => Filesystem.Create(env.fs, env.projectRoot, ConfigDirectory)
  }

  /** What `loadConfiguration()` promises, with `blame` the error for a
      namespace that opens as a directory: a loaded host is left alone; a
      cached namespace is taken from the cache; a fresh one is opened through
      the memoized configuration resolver, parsed and cached. A failure
      leaves the host and the cached documents as they were; no cached
      document is ever dropped or changed. */
  predicate LoadsAs(host: Host, cache: Cache, env: Environment, blame: (string, Filesystem.Resolver) -> Error, l: Loaded) {
    && (host.config.Some? ==> l == Loaded(host, cache, Ok(())))
    && l.host.namespace == host.namespace
    && (l.status.Err? ==> l.host == host && l.cache.documents == cache.documents)
    && (l.status.Ok? ==> l.host.config.Some?)
    && (l.status.Ok? && host.config.None? ==>
          host.namespace in l.cache.documents && l.host.config == Some(l.cache.documents[host.namespace]))
    && (forall ns :: ns in cache.documents ==> ns in l.cache.documents && l.cache.documents[ns] == cache.documents[ns])
    && (host.config.None? && host.namespace in cache.documents ==>
          l == Loaded(host.(config := Some(cache.documents[host.namespace])), cache, Ok(())))
    && (Fresh(host, cache) ==>
          var resolver := ConfigResolver(cache, env);
          && (resolver.Err? ==> l == Loaded(host, cache, Err(resolver.error)))
          && (resolver.Ok? ==>
                var h := Filesystem.Open(env.fs, resolver.value, ConfigFileName(host.namespace));
                && l.cache.resolver == Some(resolver.value)
                && (h.Ok? && h.value.FileHandle? ==>
                      && l.status.Ok?
                      && l.host.config == Some(env.parse(h.value.path))
                      && l.cache.documents == cache.documents[host.namespace := env.parse(h.value.path)])
                && (h.Ok? && h.value.DirectoryHandle? ==> l.status == Err(blame(host.namespace, resolver.value)))
                && (h.Err? ==> l.status == Err(h.error))))
  }

  /** `loadConfiguration()`, with the error raised when the namespace opens
      as a directory left to `blame`. */
  function LoadWith(host: Host, cache: Cache, env: Environment, blame: (string, Filesystem.Resolver) -> Error): (l: Loaded)
    ensures LoadsAs(host, cache, env, blame, l)
  {
    if host.config.Some? then Loaded(host, cache, Ok(()))
    else if host.namespace in cache.documents then
      Loaded(host.(config := Some(cache.documents[host.namespace])), cache, Ok(()))
    else
      var fileName := ConfigFileName(host.namespace);
      match ConfigResolver(cache, env)
      case Err(e) => Loaded(host, cache, Err(e))
      case Ok(resolver) =>
        var cache' := cache.(resolver := Some(resolver));
        match Filesystem.Open(env.fs, resolver, fileName)
        case Err(e) => Loaded(host, cache', Err(e))
        case Ok(DirectoryHandle(_, _)) => Loaded(host, cache', Err(blame(host.namespace, resolver)))
        case Ok(FileHandle(path)) =>
          var doc := env.parse(path);
          Loaded(host.(config := Some(doc)), cache'.(documents := cache'.documents[host.namespace := doc]), Ok(()))
  }

  /** The error the loader evidently means for a namespace that is not a
      readable file: not found, reported against the configuration root. */
  function NotAFile(namespace: string, resolver: Filesystem.Resolver): Error {
    PathNotExists(PathNotExistsException.New(namespace, Some(resolver.path)))
  }

  /** `loadConfiguration()`: nothing to do once loaded; a cached namespace is
      taken from the cache without touching the filesystem; otherwise the
      file is opened, parsed, and cached under the namespace. */
  function Load(host: Host, cache: Cache, env: Environment): (l: Loaded)
    ensures LoadsAs(host, cache, env, NotAFile, l)
  {
    LoadWith(host, cache, env, NotAFile)
  }

  /** Loading twice is loading once, whether the first load succeeded or not. */
  lemma LoadIdempotent(host: Host, cache: Cache, env: Environment)
    ensures var l := Load(host, cache, env);
      Load(l.host, l.cache, env) == l
  {
    var l := Load(host, cache, env);
    if host.config.None? && host.namespace !in cache.documents && ConfigResolver(cache, env).Ok? {
      var resolver := ConfigResolver(cache, env).value;
      var cache' := cache.(resolver := Some(resolver));
      assert ConfigResolver(cache', env) == Ok(resolver);
      assert cache'.(resolver := Some(resolver)) == cache';
      if l.status.Err? {
        assert l.host == host && l.cache == cache';
      }
    }
  }

  /** A namespace already in the cache is served without the filesystem or
      the parser. */
  lemma CachedNamespaceNeedsNoFile(host: Host, cache: Cache, env1: Environment, env2: Environment)
    requires host.namespace in cache.documents
    ensures Load(host, cache, env1) == Load(host, cache, env2)
    ensures Load(host, cache, env1).status.Ok?
  {
  }

  /** `loadConfiguration()` as written: the directory branch reads the host
      object's own `getResolver()`, passed here as its path or None when the
      host has not initialized that property yet. */
  function LoadAsWritten(host: Host, cache: Cache, env: Environment, hostResolverPath: Option<string>): Loaded {
    LoadWith(host, cache, env, (namespace, _) =>
      match hostResolverPath
      case None => UninitializedProperty("resolver")
      case Some(p) => PathNotExists(PathNotExistsException.New(namespace, Some(p))))
  }

  /** When the namespace opens as a directory inside a host whose resolver is
      not yet set (the autoloader during its own construction), the code as
      written raises an uninitialized-property error instead of the
      not-found error. */
  lemma DirectoryNamespaceLosesItsError(host: Host, cache: Cache, env: Environment)
    requires host.config.None? && host.namespace !in cache.documents
    requires ConfigResolver(cache, env).Ok?
    requires Filesystem.Open(env.fs, ConfigResolver(cache, env).value, ConfigFileName(host.namespace)).Ok?
    requires Filesystem.Open(env.fs, ConfigResolver(cache, env).value, ConfigFileName(host.namespace)).value.DirectoryHandle?
    ensures LoadAsWritten(host, cache, env, None).status == Err(UninitializedProperty("resolver"))
    ensures Load(host, cache, env).status.Err? && Load(host, cache, env).status.error.PathNotExists?
  {
  }

  /** What `getConfigurationOption` leaves behind and returns. */
  datatype Answer = Answer(host: Host, cache: Cache, result: Result<Value>)

  /** `getConfigurationOption($name, $default)`: load, then look the dotted
      key up in the loaded document; the lookup itself changes no state. */
  function GetConfigurationOption(host: Host, cache: Cache, env: Environment, name: string, default: Value): (a: Answer)
    ensures var l := Load(host, cache, env);
      a.host == l.host && a.cache == l.cache
      && (l.status.Err? ==> a.result == Err(l.status.error))
      && (l.status.Ok? ==> a.result == Ok(Lookup(l.host.config.value, name, default)))
  {
    var l := Load(host, cache, env);
    match l.status
    case Err(e) => Answer(l.host, l.cache, Err(e))
    case Ok(_) => Answer(l.host, l.cache, Ok(Lookup(l.host.config.value, name, default)))
  }
}

=== FILE: errors.dfy ===
/** The exceptions the core raises, and the Result that carries them. */
module Errors {
  import PathNotExistsException

  datatype Error =
    | PathNotExists(exception: PathNotExistsException.Exception)
      /** InvalidArgumentException */
    | InvalidArgument(message: string)
      /** ReflectionException from `new ReflectionClass` on an unknown class */
    | ReflectionFailure(className: string)
      /** ValueError, e.g. `file_get_contents('')` */
    | ValueError(message: string)
      /** ParseError from `token_get_all(..., TOKEN_PARSE)` */
    | ParseError(path: string)
      /** RuntimeException from `new SplFileObject` on a file it cannot open */
    | RuntimeFailure(path: string)
      /** TypeError from a declared parameter or return type */
    | TypeError(message: string)
      /** Error from `newInstanceWithoutConstructor()` on a class that cannot
          be instantiated (abstract, an interface, an enum) */
    | NotInstantiable(className: string)
      /** Error: a typed property read before initialization */
    | UninitializedProperty(property: string)

  datatype Result<+T> = Ok(value: T) | Err(error: Error)
}

=== FILE: filesystem.dfy ===
/** Path resolution against a fixed root, opening, and the recursive glob
    (src/Filesystem/Resolver.php). The real filesystem is an oracle: a
    canonicalising `realpath` and a lookup of what a canonical path names. */
module Filesystem {
  import opened Optional
  import opened Errors
  import Strings
  import PathNotExistsException

  const DirectorySeparator := '/'

  /** An entry below a directory, as the recursive directory iterator sees it
      with symbolic links followed: a regular file, a directory with its
      entries in iteration order, or anything else (a socket, a broken link). */
  datatype Node = File(name: string) | Dir(name: string, children: seq<Node>) | Special(name: string)

  /** What a canonical path names. */
  datatype Entry = Missing | Directory(children: seq<Node>) | NonDirectory(readable: bool)

  datatype FileSystem = FileSystem(realpath: string -> Option<string>, entry: string -> Entry)

  datatype Resolver = Resolver(path: string)

  /** What `open` returns: PHP's `Directory` or an `SplFileObject`. */
  datatype Handle = DirectoryHandle(path: string, children: seq<Node>) | FileHandle(path: string)

  /** `realpath($p)` where the result is declared `string`: PHP's `false`
      is coerced to "". */
  function RealPath(fs: FileSystem, p: string): (r: string)
    ensures fs.realpath(p).Some? ==> r == fs.realpath(p).value
    ensures fs.realpath(p).None? ==> r == ""
  {
    fs.realpath(p).GetOr("")
  }

  /** `file_exists($p)`; it is false for the empty path. */
  predicate FileExists(fs: FileSystem, p: string) {
    p != "" && !fs.entry(p).Missing?
  }

  /** `new Resolver($path)`: fails when the project root cannot be found,
      otherwise the root is `realpath(<project root>/<path>)`. */
  function Create(fs: FileSystem, projectRoot: Option<string>, path: string): (r: Result<Resolver>)
    ensures projectRoot.None? <==> r.Err?
    ensures r.Err? ==> r.error == PathNotExists(PathNotExistsException.New(path, None))
    ensures r.Ok? && fs.realpath(projectRoot.value + [DirectorySeparator] + path).Some? ==>
      r.value.path == fs.realpath(projectRoot.value + [DirectorySeparator] + path).value
    ensures r.Ok? && fs.realpath(projectRoot.value + [DirectorySeparator] + path).None? ==> r.value.path == ""
  {
    match projectRoot
    case None => Err(PathNotExists(PathNotExistsException.New(path, None)))
    case Some(root) => Ok(Resolver(RealPath(fs, root + [DirectorySeparator] + path)))
  }

  /** The string `resolve` hands to `realpath`: the root and the segments,
      in order, glued with the directory separator. */
  function Joined(r: Resolver, segments: seq<string>): string {
    Strings.Join([r.path] + segments, DirectorySeparator)
  }

  /** `resolve(...$segments)`. */
  function Resolve(fs: FileSystem, r: Resolver, segments: seq<string>): (p: string)
    ensures fs.realpath(Joined(r, segments)).Some? ==> p == fs.realpath(Joined(r, segments)).value
    ensures fs.realpath(Joined(r, segments)).None? ==> p == ""
  {
    RealPath(fs, Joined(r, segments))
  }

  /** The joined string splits back into the root's components followed by
      the segments, so nothing is reordered, dropped or merged. */
  lemma {:induction false} JoinedKeepsSegments(r: Resolver, segments: seq<string>)
    requires forall i :: 0 <= i < |segments| ==> DirectorySeparator !in segments[i]
    ensures Strings.Split(Joined(r, segments), DirectorySeparator)
         == Strings.Split(r.path, DirectorySeparator) + segments
  {
    if |segments| > 0 {
      var pieces := [r.path] + segments;
      assert pieces[1..] == segments;
      Strings.SplitJoin(segments, DirectorySeparator);
      Strings.SplitConcat(r.path, Strings.Join(segments, DirectorySeparator), DirectorySeparator);
    } else {
      assert [r.path] + segments == [r.path];
    }
  }

  /** A directory that does not exist leaves the resolver's root "" (the
      `false` of `realpath` coerced into a string property); resolving the
      root then canonicalises "/", so the glob walks the filesystem root. */
  lemma MissingRootResolvesToFilesystemRoot(fs: FileSystem, projectRoot: string, path: string)
    requires fs.realpath(projectRoot + [DirectorySeparator] + path).None?
    ensures Create(fs, Some(projectRoot), path) == Ok(Resolver(""))
    ensures Resolve(fs, Resolver(""), [""]) == RealPath(fs, [DirectorySeparator])
  {
    var pieces := [""] + [""];
    assert pieces[1..] == [""];
    assert Strings.Join(pieces, DirectorySeparator) == "" + [DirectorySeparator] + "";
    assert Joined(Resolver(""), [""]) == [DirectorySeparator];
  }

  /** `open($path)`: resolve, fail when nothing exists there, then a
      directory handle for a directory and a file handle for anything else;
      opening a file for reading fails when it is not readable. */
  function Open(fs: FileSystem, r: Resolver, path: string): (h: Result<Handle>)
    ensures !FileExists(fs, Resolve(fs, r, [path])) ==>
      h == Err(PathNotExists(PathNotExistsException.New(path, Some(r.path))))
    ensures h.Ok? ==> FileExists(fs, Resolve(fs, r, [path])) && h.value.path == Resolve(fs, r, [path])
    ensures h.Ok? ==> (h.value.DirectoryHandle? <==> fs.entry(h.value.path).Directory?)
    ensures h.Ok? && h.value.DirectoryHandle? ==> h.value.children == fs.entry(h.value.path).children
    ensures var res := Resolve(fs, r, [path]);
      FileExists(fs, res) && fs.entry(res).Directory? ==> h == Ok(DirectoryHandle(res, fs.entry(res).children))
    ensures var res := Resolve(fs, r, [path]);
      FileExists(fs, res) && fs.entry(res).NonDirectory? ==>
        h == if fs.entry(res).readable then Ok(FileHandle(res)) else Err(RuntimeFailure(res))
  {
    var resolved := Resolve(fs, r, [path]);
    if !FileExists(fs, resolved) then Err(PathNotExists(PathNotExistsException.New(path, Some(r.path))))
    else match fs.entry(resolved)
      case Directory(children) => Ok(DirectoryHandle(resolved, children))
      case NonDirectory(readable) =>
        if readable then Ok(FileHandle(resolved)) else Err(RuntimeFailure(resolved))
  }

  /** One step of the recursive iterator: an entry and the directory it was
      listed in. */
  datatype Item = Item(parent: string, node: Node)

  function ItemPath(it: Item): string {
    it.parent + [DirectorySeparator] + it.node.name
  }

  /** The iterator in SELF_FIRST mode: every entry, each directory listed
      before what it contains. */
  function Traverse(dir: string, nodes: seq<Node>): seq<Item>
    decreases nodes
  {
    if nodes == [] then []
    else
      var n := nodes[0];
      [Item(dir, n)]
      + (if n.Dir? then Traverse(dir + [DirectorySeparator] + n.name, n.children) else [])
      + Traverse(dir, nodes[1..])
  }

  /** The glob's filter: a regular file whose file name (not its path)
      matches the pattern. */
  predicate Selected(it: Item, pattern: string, fnmatch: (string, string) -> bool) {
    it.node.File? && fnmatch(pattern, it.node.name)
  }

  /** The `foreach` with its filter: the canonical path of each selected
      item, in iteration order. */
  function Select(fs: FileSystem, items: seq<Item>, pattern: string, fnmatch: (string, string) -> bool): (paths: seq<string>)
    ensures forall p :: p in paths ==>
      exists it :: it in items && Selected(it, pattern, fnmatch) && p == RealPath(fs, ItemPath(it))
    ensures forall it :: it in items && Selected(it, pattern, fnmatch) ==> RealPath(fs, ItemPath(it)) in paths
    decreases |items|
  {
    if items == [] then []
    else
      var rest := Select(fs, items[1..], pattern, fnmatch);
      assert forall it :: it in items[1..] ==> it in items;
      assert forall it :: it in items ==> it == items[0] || it in items[1..];
      if Selected(items[0], pattern, fnmatch) then [RealPath(fs, ItemPath(items[0]))] + rest else rest
  }

  /** `globRecursive($pattern)`: the root must open as a directory; then the
      selected files of its whole tree. */
  function GlobRecursive(fs: FileSystem, r: Resolver, pattern: string, fnmatch: (string, string) -> bool): (g: Result<seq<string>>)
    ensures Open(fs, r, "").Err? ==> g == Err(Open(fs, r, "").error)
    ensures Open(fs, r, "").Ok? && Open(fs, r, "").value.FileHandle? ==> g.Err? && g.error.InvalidArgument?
    ensures g.Ok? <==> Open(fs, r, "").Ok? && Open(fs, r, "").value.DirectoryHandle?
    ensures g.Ok? ==>
      var h := Open(fs, r, "").value;
      var items := Traverse(h.path, h.children);
      && (forall it :: it in items && Selected(it, pattern, fnmatch) ==> RealPath(fs, ItemPath(it)) in g.value)
      && (forall p :: p in g.value ==> exists it :: it in items && Selected(it, pattern, fnmatch) && p == RealPath(fs, ItemPath(it)))
  {
    match Open(fs, r, "")
    case Err(e) => Err(e)
    case Ok(FileHandle(p)) => Err(InvalidArgument("Invalid directory: " + DirName(p)))
    case Ok(DirectoryHandle(d, children)) => Ok(Select(fs, Traverse(d, children), pattern, fnmatch))
  }

  /** Item `j` was listed in `dir` itself or in a directory listed earlier. */
  predicate ParentListedBefore(items: seq<Item>, j: int, dir: string)
    requires 0 <= j < |items|
  {
    items[j].parent == dir
    || exists i :: 0 <= i < j && items[i].node.Dir? && ItemPath(items[i]) == items[j].parent
  }

  /** Pre-order: every entry comes after the directory it was listed in. */
  lemma {:induction false} ParentsBeforeChildren(dir: string, nodes: seq<Node>)
    ensures forall j :: 0 <= j < |Traverse(dir, nodes)| ==> ParentListedBefore(Traverse(dir, nodes), j, dir)
    decreases nodes
  {
    if nodes != [] {
      var n := nodes[0];
      var sub := if n.Dir? then Traverse(dir + [DirectorySeparator] + n.name, n.children) else [];
      var rest := Traverse(dir, nodes[1..]);
      var items := Traverse(dir, nodes);
      assert items == [Item(dir, n)] + sub + rest;
      ParentsBeforeChildren(dir, nodes[1..]);
      if n.Dir? {
        ParentsBeforeChildren(dir + [DirectorySeparator] + n.name, n.children);
      }
      forall j | 0 <= j < |items|
        ensures ParentListedBefore(items, j, dir)
      {
        if j == 0 {
        } else if j < 1 + |sub| {
          var j' := j - 1;
          assert n.Dir? && sub == Traverse(dir + [DirectorySeparator] + n.name, n.children);
          assert items[j] == sub[j'];
          assert ParentListedBefore(sub, j', dir + [DirectorySeparator] + n.name);
          if sub[j'].parent == dir + [DirectorySeparator] + n.name {
            assert ItemPath(items[0]) == items[j].parent;
          } else {
            var i' :| 0 <= i' < j' && sub[i'].node.Dir? && ItemPath(sub[i']) == sub[j'].parent;
            assert items[1 + i'] == sub[i'];
          }
        } else {
          var j' := j - 1 - |sub|;
          assert items[j] == rest[j'];
          assert ParentListedBefore(rest, j', dir);
          if rest[j'].parent != dir {
            var i' :| 0 <= i' < j' && rest[i'].node.Dir? && ItemPath(rest[i']) == rest[j'].parent;
            assert items[1 + |sub| + i'] == rest[i'];
          }
        }
      }
    }
  }

  /** Every entry of the listing is visited. */
  lemma {:induction false} TraverseListsEntries(dir: string, nodes: seq<Node>, n: Node)
    requires n in nodes
    ensures Item(dir, n) in Traverse(dir, nodes)
    decreases nodes
  {
    if nodes[0] != n {
      TraverseListsEntries(dir, nodes[1..], n);
    }
  }

  /** Whatever a visited directory contains is visited too, at any depth. */
  lemma {:induction false} TraverseReachesDescendants(dir: string, nodes: seq<Node>, parent: string, name: string, children: seq<Node>, m: Node)
    requires Item(parent, Dir(name, children)) in Traverse(dir, nodes)
    requires m in children
    ensures Item(parent + [DirectorySeparator] + name, m) in Traverse(dir, nodes)
    decreases nodes
  {
    var n := nodes[0];
    var sub := if n.Dir? then Traverse(dir + [DirectorySeparator] + n.name, n.children) else [];
    var rest := Traverse(dir, nodes[1..]);
    assert Traverse(dir, nodes) == [Item(dir, n)] + sub + rest;
    if Item(parent, Dir(name, children)) == Item(dir, n) {
      TraverseListsEntries(dir + [DirectorySeparator] + name, children, m);
    } else if Item(parent, Dir(name, children)) in sub {
      TraverseReachesDescendants(dir + [DirectorySeparator] + n.name, n.children, parent, name, children, m);
    } else {
      TraverseReachesDescendants(dir, nodes[1..], parent, name, children, m);
    }
  }

  /** A direct recursive descent that emits, in listing order, the canonical
      path of each matching regular file and nothing for directories. */
  function MatchingFiles(fs: FileSystem, dir: string, nodes: seq<Node>, pattern: string, fnmatch: (string, string) -> bool): seq<string>
    decreases nodes
  {
    if nodes == [] then []
    else
      var here :=
        match nodes[0]
        case File(name) => if fnmatch(pattern, name) then [RealPath(fs, dir + [DirectorySeparator] + name)] else []
        case Dir(name, children) => MatchingFiles(fs, dir + [DirectorySeparator] + name, children, pattern, fnmatch)
        case Special(_) => [];
      here + MatchingFiles(fs, dir, nodes[1..], pattern, fnmatch)
  }

  /** The filter keeps the order of the stream it filters. */
  lemma {:induction false} SelectAppend(fs: FileSystem, a: seq<Item>, b: seq<Item>, pattern: string, fnmatch: (string, string) -> bool)
    ensures Select(fs, a + b, pattern, fnmatch) == Select(fs, a, pattern, fnmatch) + Select(fs, b, pattern, fnmatch)
    decreases |a|
  {
    if a != [] {
      assert (a + b)[1..] == a[1..] + b;
      SelectAppend(fs, a[1..], b, pattern, fnmatch);
    } else {
      assert a + b == b;
    }
  }

  /** Filtering the SELF_FIRST stream yields exactly what the recursive
      descent yields: each matching regular file once, at its place in the
      pre-order, whatever its depth. */
  lemma {:induction false} GlobIsRecursiveDescent(fs: FileSystem, dir: string, nodes: seq<Node>, pattern: string, fnmatch: (string, string) -> bool)
    ensures Select(fs, Traverse(dir, nodes), pattern, fnmatch) == MatchingFiles(fs, dir, nodes, pattern, fnmatch)
    decreases nodes
  {
    if nodes != [] {
      var n := nodes[0];
      var sub := if n.Dir? then Traverse(dir + [DirectorySeparator] + n.name, n.children) else [];
      var rest := Traverse(dir, nodes[1..]);
      assert Traverse(dir, nodes) == [Item(dir, n)] + sub + rest;
      SelectAppend(fs, [Item(dir, n)] + sub, rest, pattern, fnmatch);
      SelectAppend(fs, [Item(dir, n)], sub, pattern, fnmatch);
      GlobIsRecursiveDescent(fs, dir, nodes[1..], pattern, fnmatch);
      if n.Dir? {
        GlobIsRecursiveDescent(fs, dir + [DirectorySeparator] + n.name, n.children, pattern, fnmatch);
      }
    }
  }

  /** `SplFileInfo::getPath()`: the path up to its last separator. */
  function DirName(p: string): string
    decreases |p|
  {
    if |p| == 0 then ""
    else if p[|p| - 1] == DirectorySeparator then p[..|p| - 1]
    else DirName(p[..|p| - 1])
  }
}

=== FILE: optional.dfy ===
/** PHP's nullable values: `null` (or `false` from a failed lookup) is None. */
module Optional {

  datatype Option<+T> = None | Some(value: T) {

    /** The value, or `default` when there is none (PHP's `??`). */
    function GetOr(default: T): T {
      match this
      case Some(v) => v
      case None => default
    }
  }
}

=== FILE: ordered_maps.dfy ===
/** PHP's ArrayObject used as a dictionary with string keys: a map that
    remembers the order in which keys were first inserted (`array_keys`
    returns that order). */
module OrderedMaps {

  datatype OrderedMap<V> = OrderedMap(keys: seq<string>, values: map<string, V>)

  /** Keys are listed once each, and exactly the keys of the map are listed. */
  predicate Valid<V>(m: OrderedMap<V>) {
    && (forall i, j :: 0 <= i < j < |m.keys| ==> m.keys[i] != m.keys[j])
    && m.values.Keys == (set k | k in m.keys)
  }

  function Empty<V>(): (m: OrderedMap<V>)
    ensures Valid(m) && m.keys == [] && m.values == map[]
  {
    OrderedMap([], map[])
  }

  /** `offsetSet($k, $v)`: a new key goes to the end, an existing key keeps
      its place and takes the new value. */
  function Put<V>(m: OrderedMap<V>, k: string, v: V): (r: OrderedMap<V>)
    requires Valid(m)
    ensures Valid(r)
    ensures r.values == m.values[k := v]
    ensures k in m.values ==> r.keys == m.keys
    ensures k !in m.values ==> r.keys == m.keys + [k]
  {
    if k in m.values then OrderedMap(m.keys, m.values[k := v])
    else OrderedMap(m.keys + [k], m.values[k := v])
  }
}

=== FILE: path_not_exists_exception.dfy ===
/** The not-found error of the filesystem layer
    (src/Filesystem/PathNotExistsException.php). */
module PathNotExistsException {
  import opened Optional

  /** The exception code every instance carries, the HTTP not-found status. */
  const NotFoundCode := 404

  /** A constructed exception: the two constructor arguments and what the
      parent `Exception` constructor received. */
  datatype Exception = Exception(path: string, rootDirectory: Option<string>, message: string, code: int)

  /** PHP truthiness of a `?string`: null, "" and "0" are falsy. */
  predicate Truthy(root: Option<string>) {
    root.Some? && root.value != "" && root.value != "0"
  }

  function Quoted(s: string): string {
    "\"" + s + "\""
  }

  /** `new PathNotExistsException($path, $rootDirectory)`: the message is
      `sprintf('Path non existent "%s" from "%s"', ...)` for a truthy root and
      `sprintf('Path non existent "%s"', ...)` otherwise. */
  function New(path: string, rootDirectory: Option<string>): (e: Exception)
    ensures e.code == NotFoundCode
    ensures GetPath(e) == path && e.rootDirectory == rootDirectory
    ensures Truthy(rootDirectory) ==>
      e.message == "Path non existent " + Quoted(path) + " from " + Quoted(rootDirectory.value)
    ensures !Truthy(rootDirectory) ==> e.message == "Path non existent " + Quoted(path)
  {
    var bare := "Path non existent " + Quoted(path);
    var message := if Truthy(rootDirectory) then bare + " from " + Quoted(rootDirectory.value) else bare;
    Exception(path, rootDirectory, message, NotFoundCode)
  }

  /** `getPath()`. */
  function GetPath(e: Exception): string {
    e.path
  }

  /** A truthy root only appends ` from "<root>"` to the message the
      exception would carry without one. */
  lemma RootExtendsMessage(path: string, root: Option<string>)
    requires Truthy(root)
    ensures New(path, root).message == New(path, None).message + " from " + Quoted(root.value)
  {
  }

  /** Every falsy root (null, "", "0") gives the same message. */
  lemma FalsyRootsAgree(path: string, r1: Option<string>, r2: Option<string>)
    requires !Truthy(r1) && !Truthy(r2)
    ensures New(path, r1).message == New(path, r2).message
  {
  }

  /** Without a root, the message determines the path. */
  lemma {:induction false} MessageDeterminesPath(p1: string, p2: string)
    requires New(p1, None).message == New(p2, None).message
    ensures p1 == p2
  {
    var head := "Path non existent \"";
    var m1 := New(p1, None).message;
    assert m1 == head + p1 + "\"";
    assert New(p2, None).message == head + p2 + "\"";
    assert |p1| == |p2|;
    assert p1 == m1[|head|..|head| + |p1|];
  }
}

=== FILE: strings.dfy ===
/** The few PHP string functions the core relies on, over `seq<char>`. */
module Strings {

  /** `str_ends_with($s, $suffix)`. */
  predicate EndsWith(s: string, suffix: string) {
    |suffix| <= |s| && s[|s| - |suffix|..] == suffix
  }

  /** `implode($glue, $pieces)` with a one-character glue. */
  function Join(pieces: seq<string>, glue: char): string
  {
    if |pieces| == 0 then ""
    else if |pieces| == 1 then pieces[0]
    else pieces[0] + [glue] + Join(pieces[1..], glue)
  }

  /** `explode($sep, $s)` with a one-character separator: every occurrence of
      `sep` cuts, so the result has one piece more than `s` has separators. */
  function Split(s: string, sep: char): (pieces: seq<string>)
    ensures |pieces| >= 1
    ensures forall i :: 0 <= i < |pieces| ==> sep !in pieces[i]
    decreases |s|
  {
    if |s| == 0 then [""]
    else
      var rest := Split(s[1..], sep);
      if s[0] == sep then [""] + rest
      else [[s[0]] + rest[0]] + rest[1..]
  }

  lemma {:induction false} SplitWithoutSeparator(s: string, sep: char)
    requires sep !in s
    ensures Split(s, sep) == [s]
    decreases |s|
  {
    if |s| > 0 {
      SplitWithoutSeparator(s[1..], sep);
      assert s == [s[0]] + s[1..];
    }
  }

  /** Splitting distributes over a separator: the pieces of `a`, then those of `b`. */
  lemma {:induction false} SplitConcat(a: string, b: string, sep: char)
    ensures Split(a + [sep] + b, sep) == Split(a, sep) + Split(b, sep)
    decreases |a|
  {
    var s := a + [sep] + b;
    if |a| == 0 {
      assert s[1..] == b;
    } else {
      assert s[1..] == a[1..] + [sep] + b;
      SplitConcat(a[1..], b, sep);
    }
  }

  /** Joining the pieces of `explode` gives back the string. */
  lemma {:induction false} JoinSplit(s: string, sep: char)
    ensures Join(Split(s, sep), sep) == s
    decreases |s|
  {
    if |s| > 0 {
      var rest := Split(s[1..], sep);
      JoinSplit(s[1..], sep);
      if s[0] == sep {
        assert ([""] + rest)[1..] == rest;
      } else {
        var pieces := [[s[0]] + rest[0]] + rest[1..];
        if |rest| == 1 {
          assert pieces == [[s[0]] + rest[0]];
        } else {
          assert pieces[1..] == rest[1..];
          assert Join(rest, sep) == rest[0] + [sep] + Join(rest[1..], sep);
        }
      }
    }
  }

  /** Exploding an implode of separator-free pieces gives back the pieces. */
  lemma {:induction false} SplitJoin(pieces: seq<string>, sep: char)
    requires |pieces| >= 1
    requires forall i :: 0 <= i < |pieces| ==> sep !in pieces[i]
    ensures Split(Join(pieces, sep), sep) == pieces
    decreases |pieces|
  {
    SplitWithoutSeparator(pieces[0], sep);
    if |pieces| > 1 {
      SplitJoin(pieces[1..], sep);
      SplitConcat(pieces[0], Join(pieces[1..], sep), sep);
      assert pieces == [pieces[0]] + pieces[1..];
    }
  }

  /** `pieces` with `t` appended to its last piece. */
  function ExtendLast(pieces: seq<string>, t: string): seq<string>
    requires |pieces| >= 1
  {
    pieces[..|pieces| - 1] + [pieces[|pieces| - 1] + t]
  }

  /** Extending the last piece commutes with prepending a character to the
      first piece. */
  lemma ExtendLastCons(c: char, q: seq<string>, t: string)
    requires |q| >= 1
    ensures var r := ExtendLast(q, t);
      [[c] + r[0]] + r[1..] == ExtendLast([[c] + q[0]] + q[1..], t)
  {
    var r := ExtendLast(q, t);
    if |q| == 1 {
      assert r == [q[0] + t];
      assert [c] + (q[0] + t) == [c] + q[0] + t;
    } else {
      assert r[0] == q[0] && r[1..] == q[1..|q| - 1] + [q[|q| - 1] + t];
    }
  }

  /** Extending the last piece commutes with prepending an empty piece. */
  lemma ExtendLastEmpty(q: seq<string>, t: string)
    requires |q| >= 1
    ensures [""] + ExtendLast(q, t) == ExtendLast([""] + q, t)
  {
    assert ([""] + q)[..|q|] == [""] + q[..|q| - 1];
  }

  /** Appending text without a separator only lengthens the last piece. */
  lemma {:induction false} SplitExtendsLastPiece(s: string, t: string, sep: char)
    requires sep !in t
    ensures Split(s + t, sep) == ExtendLast(Split(s, sep), t)
    decreases |s|
  {
    if |s| == 0 {
      assert s + t == t;
      SplitWithoutSeparator(t, sep);
      assert "" + t == t;
    } else {
      var u := s + t;
      assert u[0] == s[0] && u[1..] == s[1..] + t;
      SplitExtendsLastPiece(s[1..], t, sep);
      var q := Split(s[1..], sep);
      if s[0] == sep {
        ExtendLastEmpty(q, t);
      } else {
        ExtendLastCons(s[0], q, t);
      }
    }
  }
}
